=== FILE: README.md ===
# pbrt-v4 materials, modelled in Dafny

This project models the material layer of the pbrt-v4 renderer
(`src/pbrt/materials.h`). A material turns the textures bound to a surface
into a BSDF (and, for subsurface materials, a BSSRDF) at one shading point.
The model covers:

- the eleven material variants, each as an immutable datatype with its
  texture handles, spectra and flags;
- each variant's `CanEvaluateTextures` declaration, against a texture
  evaluator modelled as value functions plus per-handle capability
  predicates. Absent handles are ignored, as in pbrt's `CanEvaluate`;
- each variant's `GetBSDF`, and the subsurface variant's `GetBSSRDF`, with
  the source's clamps, floors, priority orders and special cases (an index
  of refraction of 0 read as 1, a dispersive index terminating the secondary
  wavelengths, the conductor's reflectance inversion);
- `MixMaterial::ChooseMaterial`, the deterministic stochastic selection
  between two sub-materials;
- the `Material` dispatch: `GetBSDF` and `GetBSSRDF`, with the scratch-buffer
  allocation each makes, plus `CanEvaluateTextures`,
  `HasSubsurfaceScattering`, `GetDisplacement` and `GetNormalMap`;
- the displacement branch of `Bump`.

Floating-point values are modelled as reals. Routines defined outside
`materials.h` are parameters of the model, gathered in `Numerics.Externals`:

- `RoughnessToAlpha`, `Sqrt` and `HashFloat`;
- `SigmaAFromReflectance` and `SigmaAFromConcentration`;
- `SubsurfaceFromDiffuse` and `ComputeBeamDiffusionBSSRDF`.

Facts about them (a hash in [0, 1), a monotone square root) appear as lemma
hypotheses. The layered BSDF assembly of the coated materials is a parameter
too (`CoatedMaterials.LayeredBuilders`).

Errors are modelled as follows:

- A `CHECK`/`DCHECK` on the configuration returns a `Failure`. This covers a
  hair material with no absorption source, and a subsurface material without
  either coefficient pair.
- The `LOG_FATAL` "shouldn't be called" paths of the mix material become a
  precondition.

The central property is non-interference. For every variant except the two
coated ones, whose BSDF assembly is a parameter of the model, GetBSDF and
GetBSSRDF depend on the evaluator only through the textures the variant's
`CanEvaluateTextures` declares: two evaluators that agree on those produce the
same result. This shows that a texture-evaluation strategy accepted by the
capability query is never asked for anything else. Among the variants covered,
the one place where this fails in the source is recorded under Findings: the subsurface declaration omits two textures its
`GetBSSRDF` reads. The dispatch forwards the declarations exactly as the source
writes them, including that one; the corrected subsurface declaration is
modelled alongside (`CanEvaluateTexturesCorrected`) and the dispatch-level
non-interference of `GetBSSRDF` is proved over it.

A constant displacement does not leave the bumped tangents unchanged: the
code (`src/pbrt/materials.h:116-119`) adds `displace * dndu` and
`displace * dndv`, so a constant displacement c gives `dpdu + c dndu`
(`BumpMapping.ConstantDisplacement`). Only a zero displacement is the identity
(`BumpMapping.ZeroDisplacementIsIdentity`).

## Model

| member | source | states |
|---|---|---|
| Spectra.ClampIdempotent | src/pbrt/materials.h:469 | Clamping a sampled spectrum is a projection: clamping twice equals clamping once, and an in-range spectrum is unchanged |
| Spectra.SampledWavelengths.TerminateSecondary | src/pbrt/materials.h:184-185 | After termination only the hero wavelength is active, the wavelengths themselves are unchanged, and a second termination changes nothing |
| Textures.Declares | src/pbrt/materials.h:158-160 | The capability query over a declaration holds exactly when every present float handle and every present spectrum handle is evaluable; absent handles impose nothing |
| Roughness.ResolveRoughness | src/pbrt/materials.h:190-195 | Without remapping the distribution's alphas are the roughness texture values; with remapping they are RoughnessToAlpha of them |
| DielectricMaterials.SampleEta | src/pbrt/materials.h:183-187 | The sampled index is never 0: a nonzero sample is kept and 0 becomes 1. A constant spectrum leaves the wavelengths as they were; any other kind terminates the secondary wavelengths |
| DielectricMaterials.CanEvaluateTextures | src/pbrt/materials.h:158-160 | True exactly when both roughness textures are evaluable |
| DielectricMaterials.GetBSDF | src/pbrt/materials.h:180-200 | Builds a dielectric BxDF in the shading frame. Its index is the sampled index, with a sample of 0 read as 1, and its distribution is the resolved roughness. The wavelengths end up terminated exactly when they already were or the index spectrum is not constant |
| DielectricMaterials.EtaZeroActsAsOne | src/pbrt/materials.h:186-187 | Two index spectra of the same kind sampling 0 and 1 give identical BSDFs and wavelengths |
| DielectricMaterials.GetBSDFReadsOnlyDeclared | src/pbrt/materials.h:158-200 | Evaluators that agree on the declared roughness textures build the same BSDF |
| DielectricMaterials.ReevaluationIsStable | src/pbrt/materials.h:180-200 | Evaluating again with the wavelengths a first call left behind gives the same BSDF and wavelengths |
| ThinDielectricMaterials.CanEvaluateTextures | src/pbrt/materials.h:218-220 | Every evaluator is accepted, and this agrees with the empty declaration |
| ThinDielectricMaterials.GetBSDF | src/pbrt/materials.h:223-236 | Builds a thin dielectric BxDF whose index is the sample when that is nonzero and 1 when it is 0; wavelengths end up terminated exactly for a non-constant spectrum or already-terminated input |
| ThinDielectricMaterials.EtaZeroActsAsOne | src/pbrt/materials.h:230-231 | Sampled index 0 and sampled index 1 give the same BSDF and wavelengths |
| MixMaterials.GetMaterial | src/pbrt/materials.h:281 | Index 0 gives the first sub-material and index 1 the second |
| MixMaterials.CanEvaluateTextures | src/pbrt/materials.h:318-320 | True exactly when the amount texture is evaluable |
| MixMaterials.ChooseMaterial | src/pbrt/materials.h:323-333 | The result is one of the two sub-materials: the first for amounts at or below 0, the second for amounts at or above 1 |
| MixMaterials.ChooseMaterialIsThresholdRule | src/pbrt/materials.h:323-333 | With a hash in [0, 1), the choice is "first when amount < hash, else second" for every amount, except amount 0 with hash 0, where the end-point rule keeps the first |
| MixMaterials.ChooseMaterialIsDeterministic | src/pbrt/materials.h:325-332 | The choice depends only on the amount value, the shading point and the outgoing direction; every other part of the context and the evaluator is irrelevant |
| MixMaterials.EndPointsIgnoreHash | src/pbrt/materials.h:326-329 | For amounts outside (0, 1) any two hash functions give the same choice |
| HairMaterials.CanEvaluateTextures | src/pbrt/materials.h:372-375 | True exactly when eta, beta_m, beta_n and alpha are evaluable, and each present one of eumelanin, pheomelanin, sigma_a and colour is evaluable |
| HairMaterials.Concentration | src/pbrt/materials.h:394-395 | A melanin concentration is never negative; an absent texture reads as 0, non-negative values are kept and negative values become 0 |
| HairMaterials.AbsorptionCoefficient | src/pbrt/materials.h:385-397 | Fails exactly when no absorption source exists. Otherwise the first present source in the order sigma_a, colour, melanin decides, with sigma_a floored at 0 and the colour clamped to [0, 1] |
| HairMaterials.GetBSDF | src/pbrt/materials.h:378-403 | Fails exactly when no absorption source exists. Otherwise each beta is its texture value when at least 0.01 and exactly 0.01 below that, the curve offset h = 2v - 1 lies in [-1, 1] for v in [0, 1], the wavelengths are unchanged, and the absorption is computed with the floored beta_n |
| HairMaterials.SourcePriority | src/pbrt/materials.h:386-397 | With sigma_a present, colour and melanin inputs do not matter; with colour present and no sigma_a, melanin does not matter |
| HairMaterials.GetBSDFReadsOnlyDeclared | src/pbrt/materials.h:372-403 | Evaluators that agree on the declared textures build the same hair BSDF |
| DiffuseMaterials.CanEvaluateTextures | src/pbrt/materials.h:462-464 | True exactly when sigma and the reflectance are evaluable |
| DiffuseMaterials.GetBSDF | src/pbrt/materials.h:467-473 | Reflectance is in [0, 1] componentwise and sigma in [0, 90], with in-range values kept and sigma below 0 or above 90 moved to that bound. Transmission is zero and the wavelengths are unchanged |
| DiffuseMaterials.ReflectanceSaturates | src/pbrt/materials.h:469 | Reflectance above 1 becomes 1 and below 0 becomes 0 |
| DiffuseMaterials.ConstantHalfReflectance | src/pbrt/materials.h:467-473 | A constant 0.5 reflectance with sigma 0 gives exactly the BxDF with albedo 0.5, no transmission and sigma 0 |
| DiffuseMaterials.GetBSDFReadsOnlyDeclared | src/pbrt/materials.h:462-473 | Evaluators that agree on sigma and reflectance build the same BSDF |
| DiffuseTransmissionMaterials.CanEvaluateTextures | src/pbrt/materials.h:815-817 | True exactly when sigma, reflectance and transmittance are evaluable |
| DiffuseTransmissionMaterials.GetBSDF | src/pbrt/materials.h:820-827 | Scaled reflectance and transmittance are clamped to [0, 1] componentwise: in-range scaled values are kept, values below 0 become 0 and values above 1 become 1. Sigma passes through unclamped and the wavelengths are unchanged |
| DiffuseTransmissionMaterials.GetBSDFReadsOnlyDeclared | src/pbrt/materials.h:815-827 | Evaluators that agree on the three declared textures build the same BSDF |
| ConductorMaterials.CanEvaluateTextures | src/pbrt/materials.h:491-493 | True exactly when both roughness textures are evaluable and each present one of eta, k and reflectance is evaluable |
| ConductorMaterials.KFromReflectance | src/pbrt/materials.h:511 | Each component of k is 2 sqrt(r) / sqrt(max(0, 1 - r)) |
| ConductorMaterials.GetBSDF | src/pbrt/materials.h:496-516 | With an eta texture, eta and k are the texture values. Without one, eta is 1 in every component and k is the reflectance inversion. The distribution is the resolved roughness and the wavelengths are unchanged |
| ConductorMaterials.InversionDefinedIffBelowOne | src/pbrt/materials.h:511 | With a monotone square root, the inversion's denominator is nonzero in every component exactly when every reflectance component is below 1 |
| ConductorMaterials.ZeroReflectanceGivesZeroK | src/pbrt/materials.h:511 | Zero reflectance gives zero absorption |
| ConductorMaterials.KIncreasesWithReflectance | src/pbrt/materials.h:511 | The derived k grows strictly with the reflectance on [0, 1) |
| ConductorMaterials.GetBSDFReadsOnlyDeclared | src/pbrt/materials.h:491-516 | Evaluators that agree on the declared textures build the same conductor BSDF |
| CoatedMaterials.CanEvaluateDiffuseTextures | src/pbrt/materials.h:585-588 | True exactly when the two roughness textures, thickness, g, reflectance and albedo are evaluable |
| CoatedMaterials.CanEvaluateConductorTextures | src/pbrt/materials.h:657-661 | True exactly when the interface and conductor roughness pairs, thickness, g and albedo are evaluable and each present one of the conductor eta, k and reflectance is evaluable |
| CoatedMaterials.GetDiffuseBSDF | src/pbrt/materials.h:591-592 | The result is a coated-diffuse BxDF in the shading frame |
| CoatedMaterials.GetConductorBSDF | src/pbrt/materials.h:664-666 | The result is a coated-conductor BxDF in the shading frame |
| MeasuredMaterials.CanEvaluateTextures | src/pbrt/materials.h:874-876 | Every evaluator is accepted |
| MeasuredMaterials.GetBSDF | src/pbrt/materials.h:862-866 | The BxDF binds the measured data to the unchanged wavelengths, in the shading frame |
| SubsurfaceMaterials.NewSubsurfaceMaterial | src/pbrt/materials.h:707-725 | The table has 100 rho and 64 radius samples, and its contents are the beam-diffusion result for (g, eta). All other parameters are stored as given |
| SubsurfaceMaterials.TableDependsOnlyOnGAndEta | src/pbrt/materials.h:723-724 | Two materials built from the same g and eta have identical tables |
| SubsurfaceMaterials.CanEvaluateTextures | src/pbrt/materials.h:730-732 | The declaration as written: true exactly when both roughness textures and each present one of sigma_a and sigma_s are evaluable |
| SubsurfaceMaterials.CanEvaluateTexturesCorrected | src/pbrt/materials.h:730-732 | The corrected declaration: true exactly when the declaration as written accepts and each present one of reflectance and mfp is evaluable |
| SubsurfaceMaterials.GetBSDF | src/pbrt/materials.h:735-749 | A dielectric BxDF with the material's fixed index (no zero guard) and the resolved roughness; the wavelengths are unchanged |
| SubsurfaceMaterials.DiffuseReflectance | src/pbrt/materials.h:765 | The target reflectance is the reflectance texture clamped to [0, 1] componentwise: in-range values kept, below 0 becomes 0, above 1 becomes 1 |
| SubsurfaceMaterials.MeanFreePath | src/pbrt/materials.h:764 | The mean free path is the mfp texture scaled by `scale` and floored at 0 componentwise |
| SubsurfaceMaterials.GetBSSRDF | src/pbrt/materials.h:752-769 | Fails exactly when neither (sigma_a, sigma_s) nor (reflectance, mfp) is fully present. Otherwise the point, normal, direction, index and table come from the context and the material. The direct coefficients are scaled, non-negative, and take priority over the diffuse inversion |
| SubsurfaceMaterials.GetBSDFReadsOnlyDeclared | src/pbrt/materials.h:730-749 | The surface BSDF depends only on the roughness textures, which the declaration as written names |
| SubsurfaceMaterials.GetBSSRDFReadsOnlyCorrectedDeclaration | src/pbrt/materials.h:752-769 | Under the corrected declaration, evaluators that agree on the declared textures produce the same subsurface response |
| SubsurfaceMaterials.AsWrittenDeclarationMissesReads | src/pbrt/materials.h:730-732 | Some material and two evaluators agree on every texture declared as written, yet produce different subsurface responses |
| BumpMapping.ToTextureEvalContext | src/pbrt/materials.h:69-71 | The texture context carries the bump context's point, uv, derivatives and face index |
| BumpMapping.FiniteDifferenceStep | src/pbrt/materials.h:98-100 | The step is always positive. It is half the summed absolute derivatives when that sum is nonzero, and 0.0005 when both derivatives are 0 |
| BumpMapping.Bump | src/pbrt/materials.h:88-120 | The displacement branch runs exactly when a displacement texture is present. Each tangent becomes tangent + (shifted - centre)/step times the normal + centre times the normal's derivative, with positions shifted along the tangent and uv shifted by the step |
| BumpMapping.ConstantDisplacement | src/pbrt/materials.h:113-119 | A constant displacement c yields tangents dpdu + c dndu and dpdv + c dndv |
| BumpMapping.LinearDisplacementSlope | src/pbrt/materials.h:103-119 | When the displacement at the u- and v-shifted points exceeds the centre value d by a and b times the step, the tangents become dpdu + a n + d dndu and dpdv + b n + d dndv: the slope term is the finite-difference quotient over the step |
| BumpMapping.ZeroDisplacementIsIdentity | src/pbrt/materials.h:113-119 | A zero displacement leaves both tangents unchanged |
| Materials.HasSubsurfaceScattering | src/pbrt/materials.h:943-946 | True exactly for the subsurface variant |
| Materials.CanEvaluateTextures | src/pbrt/materials.h:918-922 | The dispatched query is the capability query over the held variant's own declaration (as the source writes each one), so it holds exactly when every present texture that variant declares is evaluable |
| Materials.GetDisplacement | src/pbrt/materials.h:948-951 | The displacement texture is the held variant's own; hair has none |
| Materials.GetNormalMap | src/pbrt/materials.h:953-956 | The normal map is the held variant's own; hair has none |
| Materials.VariantBSDF | src/pbrt/materials.h:904-916 | The variant's BSDF has the BxDF type the variant names, in the shading frame, and fails exactly for a hair material with no absorption source |
| Materials.VariantBSDFIsVariantsOwn | src/pbrt/materials.h:908-915 | For every variant, the dispatched construction is exactly that variant's own GetBSDF |
| Materials.GetBSDF | src/pbrt/materials.h:904-916 | Exactly one scratch slot of the variant's BxDF type is allocated and the BxDF built has that type. The BSDF and wavelengths are the variant's own result, and it fails exactly when that does. Only dielectric and layered variants may change the wavelengths |
| Materials.GetBSSRDF | src/pbrt/materials.h:924-941 | Variants whose BSSRDF type is void return none and leave the buffer untouched. For the subsurface variant, it fails exactly when the variant's own GetBSSRDF fails, with the same error; otherwise it returns that response and allocates exactly one BSSRDF slot |
| Materials.SubsurfaceResponseIffReported | src/pbrt/materials.h:924-946 | A response is produced exactly when the material reports subsurface scattering; otherwise nothing is allocated |
| Materials.ShadingEventAllocations | src/pbrt/materials.h:904-941 | A BSDF request followed by a BSSRDF request on the same buffer allocates two slots for a subsurface material and one otherwise |
| Materials.GetBSDFReadsOnlyDeclared | src/pbrt/materials.h:904-922 | For every variant whose BSDF is built in this model, evaluators that agree on the declared textures give the same dispatched BSDF and allocation |
| Materials.GetBSSRDFReadsOnlyCorrectedDeclaration | src/pbrt/materials.h:919-941 | With the subsurface declaration corrected, evaluators that agree on the declared textures give the same dispatched subsurface response |
| Materials.DispatchedDeclarationMissesReads | src/pbrt/materials.h:919-941 | With the declarations the dispatch forwards, some material and two evaluators agree on every declared texture yet give different dispatched subsurface responses |

## Left out

- The normal-map branch of `Bump` (lines 121-135): it samples an image and normalises vectors. `BumpMapping.Bump` only reports that this branch would run.
- The BxDFs themselves (evaluation, sampling, pdfs): they live outside `materials.h`. A BxDF is a record of its constructor arguments.
- CoatedMaterials.GetDiffuseBSDF: the body is defined outside `materials.h`. The model only states the BxDF type and frame; the assembly is a parameter.
- CoatedMaterials.GetConductorBSDF: same reason as for the coated diffuse material.
- Material creation from parameter dictionaries (`Create`), `ToString`, `Name` and the loading of measured data from files: these are scene-description I/O.
- Spectra.SampledWavelengths.TerminateSecondary: the rescaling of the secondary pdfs is not modelled, only the termination state.
- ConductorMaterials.GetBSDF: without an eta texture, requires the denominator sqrt(max(0, 1 - r)) of the reflectance inversion to be nonzero in every component. Under IEEE arithmetic a zero denominator gives an infinite k, and reals have no infinities.
- MixMaterials.ChooseMaterial: `HashFloat` is a parameter, so its range [0, 1) is a hypothesis of the lemmas rather than a fact.
- Materials.GetBSDF: the mix variant is excluded by a precondition, standing for the source's `LOG_FATAL`. Resolving mixes to a concrete material is the caller's loop, outside `materials.h`.
- Materials.GetDisplacement: the same for the mix variant.
- Materials.GetNormalMap: the same for the mix variant.
- ConductorMaterials.Valid: the conductor's construction (not part of this model) guarantees that k accompanies eta and that a reflectance is present without eta; the model takes this as part of the GetBSDF precondition.
- Materials.GetBSDFReadsOnlyDeclared: it excludes the two coated variants, whose BSDF assembly is a parameter of the model.
- Byte sizes and alignment of scratch allocations: a slot records only the allocated type.
- Single-precision rounding: all arithmetic is on reals, so `0.0005` is the exact decimal and not its float approximation.
- The GPU build, where `LOG_FATAL` is compiled out and the mix paths return an empty result.

## Findings

| source | as written | input that shows it | evidently intended | confidence | as-written member | corrected member |
|---|---|---|---|---|---|---|
| src/pbrt/materials.h:730-732 (with 761-767) | `SubsurfaceMaterial::CanEvaluateTextures` declares only uRoughness, vRoughness, sigma_a and sigma_s, yet `GetBSSRDF` reads reflectance and mfp when sigma_a or sigma_s is absent | A subsurface material with reflectance and mfp but no sigma_a/sigma_s, and an evaluator that can evaluate the roughness textures but not the reflectance: the query accepts it, and `GetBSSRDF` then evaluates the reflectance through it | Declare reflectance and mfp among the deferrable spectrum textures | medium, not executed | SubsurfaceMaterials.AsWrittenDeclarationMissesReads | SubsurfaceMaterials.GetBSSRDFReadsOnlyCorrectedDeclaration |

=== FILE: bump.dfy ===
/** Bump mapping by a scalar displacement texture: the shading tangents are
    perturbed using finite differences of the displacement along u and v.
    The normal-map branch is not part of this model; `Bump` only reports that
    it would run. */
module BumpMapping {
  import opened Wrappers
  import opened Handles
  import opened Geometry
  import opened Textures

  /** The shading frame and its derivatives at the point being bumped. */
  datatype ShadingFrame = ShadingFrame(n: Vector3, dpdu: Vector3, dpdv: Vector3, dndu: Vector3, dndv: Vector3)

  /** What bump mapping sees of a surface interaction. */
  datatype BumpEvalContext = BumpEvalContext(
    p: Vector3, uv: Point2, shading: ShadingFrame,
    dudx: real, dudy: real, dvdx: real, dvdy: real,
    dpdx: Vector3, dpdy: Vector3, faceIndex: int)

  /** The perturbed tangents, or the normal-map branch (not modelled). */
  datatype BumpResult = Displaced(dpdu: Vector3, dpdv: Vector3) | NormalMapped(normalMap: ImageHandle)

  /** Step used when the screen-space derivatives give none. */
  const DefaultStep: real := 0.0005

  /** The texture context of the unshifted point. */
  function ToTextureEvalContext(ctx: BumpEvalContext): (t: TextureEvalContext)
    ensures t.p == ctx.p && t.uv == ctx.uv && t.faceIndex == ctx.faceIndex
    ensures t.dudx == ctx.dudx && t.dudy == ctx.dudy && t.dvdx == ctx.dvdx && t.dvdy == ctx.dvdy
    ensures t.dpdx == ctx.dpdx && t.dpdy == ctx.dpdy
  {
    TextureEvalContext(ctx.p, ctx.dpdx, ctx.dpdy, ctx.uv, ctx.dudx, ctx.dudy, ctx.dvdx, ctx.dvdy, ctx.faceIndex)
  }

  /** Finite-difference step along one parametric axis: half the summed
      screen-space derivatives, or the default step when that sum is 0. It is
      always positive, so dividing by it is defined. */
  function FiniteDifferenceStep(dx: real, dy: real): (d: real)
    ensures d > 0.0
    ensures Abs(dx) + Abs(dy) != 0.0 ==> d == 0.5 * (Abs(dx) + Abs(dy))
    ensures dx == 0.0 && dy == 0.0 ==> d == DefaultStep
  {
    var d := 0.5 * (Abs(dx) + Abs(dy));
    if d == 0.0 then DefaultStep else d
  }

  /** The texture context shifted by du along u: position moved along dp/du. */
  function ShiftU(ctx: BumpEvalContext, du: real): (t: TextureEvalContext) {
    ToTextureEvalContext(ctx).(p := Add(ctx.p, Scale(du, ctx.shading.dpdu)), uv := Point2(ctx.uv.u + du, ctx.uv.v))
  }

  /** The texture context shifted by dv along v. */
  function ShiftV(ctx: BumpEvalContext, dv: real): (t: TextureEvalContext) {
    ToTextureEvalContext(ctx).(p := Add(ctx.p, Scale(dv, ctx.shading.dpdv)), uv := Point2(ctx.uv.u, ctx.uv.v + dv))
  }

  /** The displaced tangent: original tangent, plus the displacement slope
      along the axis times the normal, plus the displacement times the
      normal's derivative along the axis. */
  function DisplacedTangent(dpd: Vector3, n: Vector3, dnd: Vector3, shifted: real, displace: real, step: real): (v: Vector3)
    requires step > 0.0
  {
    Add(Add(dpd, Scale((shifted - displace) / step, n)), Scale(displace, dnd))
  }

  /** One of the two inputs must be present; when both are, the displacement
      texture is used. The displacement must be evaluable by the evaluator. */
  function Bump(ev: TextureEvaluator, displacement: Option<FloatTexture>, normalMap: Option<ImageHandle>,
                ctx: BumpEvalContext): (r: BumpResult)
    requires displacement.Some? || normalMap.Some?
    requires displacement.Some? ==> ev.canEvaluateFloat(displacement.value)
    ensures r.Displaced? <==> displacement.Some?
    ensures r.NormalMapped? ==> r.normalMap == normalMap.value
    ensures r.Displaced? ==>
      var du := FiniteDifferenceStep(ctx.dudx, ctx.dudy);
      var dv := FiniteDifferenceStep(ctx.dvdx, ctx.dvdy);
      var d := ev.evalFloat(displacement.value, ToTextureEvalContext(ctx));
      && r.dpdu == DisplacedTangent(ctx.shading.dpdu, ctx.shading.n, ctx.shading.dndu,
                                    ev.evalFloat(displacement.value, ShiftU(ctx, du)), d, du)
      && r.dpdv == DisplacedTangent(ctx.shading.dpdv, ctx.shading.n, ctx.shading.dndv,
                                    ev.evalFloat(displacement.value, ShiftV(ctx, dv)), d, dv)
  {
    if displacement.Some? then
      var tex := displacement.value;
      var du := FiniteDifferenceStep(ctx.dudx, ctx.dudy);
      var uDisplace := ev.evalFloat(tex, ShiftU(ctx, du));
      var dv := FiniteDifferenceStep(ctx.dvdx, ctx.dvdy);
      var vDisplace := ev.evalFloat(tex, ShiftV(ctx, dv));
      var displace := ev.evalFloat(tex, ToTextureEvalContext(ctx));
      Displaced(DisplacedTangent(ctx.shading.dpdu, ctx.shading.n, ctx.shading.dndu, uDisplace, displace, du),
                DisplacedTangent(ctx.shading.dpdv, ctx.shading.n, ctx.shading.dndv, vDisplace, displace, dv))
    else
      NormalMapped(normalMap.value)
  }

  /** A displacement constant at c everywhere has zero slope, so only the
      normal-derivative term remains: the tangents become dp/du + c dn/du and
      dp/dv + c dn/dv. */
  lemma ConstantDisplacement(ev: TextureEvaluator, displacement: FloatTexture, normalMap: Option<ImageHandle>,
                             ctx: BumpEvalContext, c: real)
    requires ev.canEvaluateFloat(displacement)
    requires forall t :: ev.evalFloat(displacement, t) == c
    ensures Bump(ev, Some(displacement), normalMap, ctx) ==
      Displaced(Add(ctx.shading.dpdu, Scale(c, ctx.shading.dndu)), Add(ctx.shading.dpdv, Scale(c, ctx.shading.dndv)))
  {
  }

  /** The slope term is the finite difference of the displacement: if the
      displacement rises by a per unit u over the u step and by b per unit v
      over the v step, each tangent gains exactly that slope times the normal,
      besides the displacement times the normal's derivative. */
  lemma LinearDisplacementSlope(ev: TextureEvaluator, displacement: FloatTexture, normalMap: Option<ImageHandle>,
                                ctx: BumpEvalContext, d: real, a: real, b: real)
    requires ev.canEvaluateFloat(displacement)
    requires ev.evalFloat(displacement, ToTextureEvalContext(ctx)) == d
    requires ev.evalFloat(displacement, ShiftU(ctx, FiniteDifferenceStep(ctx.dudx, ctx.dudy)))
             == d + a * FiniteDifferenceStep(ctx.dudx, ctx.dudy)
    requires ev.evalFloat(displacement, ShiftV(ctx, FiniteDifferenceStep(ctx.dvdx, ctx.dvdy)))
             == d + b * FiniteDifferenceStep(ctx.dvdx, ctx.dvdy)
    ensures Bump(ev, Some(displacement), normalMap, ctx) ==
      Displaced(Add(Add(ctx.shading.dpdu, Scale(a, ctx.shading.n)), Scale(d, ctx.shading.dndu)),
                Add(Add(ctx.shading.dpdv, Scale(b, ctx.shading.n)), Scale(d, ctx.shading.dndv)))
  {
    var r := Bump(ev, Some(displacement), normalMap, ctx);
    SlopeAlongU(ev, displacement, normalMap, ctx, d, a);
    SlopeAlongV(ev, displacement, normalMap, ctx, d, b);
    assert r.Displaced?;
  }

  /** The u half of `LinearDisplacementSlope`. */
  lemma SlopeAlongU(ev: TextureEvaluator, displacement: FloatTexture, normalMap: Option<ImageHandle>,
                    ctx: BumpEvalContext, d: real, a: real)
    requires ev.canEvaluateFloat(displacement)
    requires ev.evalFloat(displacement, ToTextureEvalContext(ctx)) == d
    requires ev.evalFloat(displacement, ShiftU(ctx, FiniteDifferenceStep(ctx.dudx, ctx.dudy)))
             == d + a * FiniteDifferenceStep(ctx.dudx, ctx.dudy)
    ensures Bump(ev, Some(displacement), normalMap, ctx).dpdu
            == Add(Add(ctx.shading.dpdu, Scale(a, ctx.shading.n)), Scale(d, ctx.shading.dndu))
  {
    var du := FiniteDifferenceStep(ctx.dudx, ctx.dudy);
    var r := Bump(ev, Some(displacement), normalMap, ctx);
    var su := ev.evalFloat(displacement, ShiftU(ctx, du));
    assert r.dpdu == DisplacedTangent(ctx.shading.dpdu, ctx.shading.n, ctx.shading.dndu, su, d, du);
    SlopeTangent(ctx.shading.dpdu, ctx.shading.n, ctx.shading.dndu, d, a, du);
    assert su == d + a * du;
  }

  /** The v half of `LinearDisplacementSlope`. */
  lemma SlopeAlongV(ev: TextureEvaluator, displacement: FloatTexture, normalMap: Option<ImageHandle>,
                    ctx: BumpEvalContext, d: real, b: real)
    requires ev.canEvaluateFloat(displacement)
    requires ev.evalFloat(displacement, ToTextureEvalContext(ctx)) == d
    requires ev.evalFloat(displacement, ShiftV(ctx, FiniteDifferenceStep(ctx.dvdx, ctx.dvdy)))
             == d + b * FiniteDifferenceStep(ctx.dvdx, ctx.dvdy)
    ensures Bump(ev, Some(displacement), normalMap, ctx).dpdv
            == Add(Add(ctx.shading.dpdv, Scale(b, ctx.shading.n)), Scale(d, ctx.shading.dndv))
  {
    var dv := FiniteDifferenceStep(ctx.dvdx, ctx.dvdy);
    var r := Bump(ev, Some(displacement), normalMap, ctx);
    var sv := ev.evalFloat(displacement, ShiftV(ctx, dv));
    assert r.dpdv == DisplacedTangent(ctx.shading.dpdv, ctx.shading.n, ctx.shading.dndv, sv, d, dv);
    SlopeTangent(ctx.shading.dpdv, ctx.shading.n, ctx.shading.dndv, d, b, dv);
    assert sv == d + b * dv;
  }

  /** A shifted value of d + a step, measured from d, puts slope a on the
      normal. */
  lemma SlopeTangent(dpd: Vector3, n: Vector3, dnd: Vector3, d: real, a: real, step: real)
    requires step > 0.0
    ensures DisplacedTangent(dpd, n, dnd, d + a * step, d, step) == Add(Add(dpd, Scale(a, n)), Scale(d, dnd))
  {
    assert (d + a * step - d) / step == a;
  }

  /** A displacement of 0 everywhere leaves both tangents unchanged. */
  lemma ZeroDisplacementIsIdentity(ev: TextureEvaluator, displacement: FloatTexture, normalMap: Option<ImageHandle>,
                                   ctx: BumpEvalContext)
    requires ev.canEvaluateFloat(displacement)
    requires forall t :: ev.evalFloat(displacement, t) == 0.0
    ensures Bump(ev, Some(displacement), normalMap, ctx) == Displaced(ctx.shading.dpdu, ctx.shading.dpdv)
  {
    ConstantDisplacement(ev, displacement, normalMap, ctx, 0.0);
  }
}

=== FILE: coated.dfy ===
/** The two layered materials: a dielectric coating over a diffuse base, and a
    dielectric coating over a conductor. Their texture declarations are part of
    this model; how their BSDFs are assembled is not, so that step is a
    parameter (`LayeredBuilders`). */
module CoatedMaterials {
  import opened Wrappers
  import opened Handles
  import opened Spectra
  import opened Textures
  import opened Scattering

  datatype CoatedDiffuseMaterial = CoatedDiffuseMaterial(
    reflectance: SpectrumTexture, uRoughness: FloatTexture, vRoughness: FloatTexture,
    thickness: FloatTexture, albedo: SpectrumTexture, g: FloatTexture, eta: Spectrum,
    displacement: Option<FloatTexture>, normalMap: Option<ImageHandle>,
    remapRoughness: bool, maxDepth: int, nSamples: int)

  datatype CoatedConductorMaterial = CoatedConductorMaterial(
    interfaceURoughness: FloatTexture, interfaceVRoughness: FloatTexture,
    thickness: FloatTexture, interfaceEta: Spectrum, g: FloatTexture, albedo: SpectrumTexture,
    conductorURoughness: FloatTexture, conductorVRoughness: FloatTexture,
    conductorEta: Option<SpectrumTexture>, k: Option<SpectrumTexture>, reflectance: Option<SpectrumTexture>,
    displacement: Option<FloatTexture>, normalMap: Option<ImageHandle>,
    remapRoughness: bool, maxDepth: int, nSamples: int)

  /** The layered-BSDF assembly of each coated material, supplied from outside:
      it returns the state of the layered BxDF and the wavelengths after the call. */
  datatype LayeredBuilders = LayeredBuilders(
    coatedDiffuse: (CoatedDiffuseMaterial, TextureEvaluator, MaterialEvalContext, SampledWavelengths) -> (seq<real>, SampledWavelengths),
    coatedConductor: (CoatedConductorMaterial, TextureEvaluator, MaterialEvalContext, SampledWavelengths) -> (seq<real>, SampledWavelengths))

  /** Roughness, thickness and g are read immediately; reflectance and albedo
      may be deferred. */
  function DiffuseTextureUses(m: CoatedDiffuseMaterial): (u: TextureUse) {
    TextureUse([Some(m.uRoughness), Some(m.vRoughness), Some(m.thickness), Some(m.g)],
               [Some(m.reflectance), Some(m.albedo)])
  }

  function CanEvaluateDiffuseTextures(m: CoatedDiffuseMaterial, ev: TextureEvaluator): (r: bool)
    ensures r == Declares(ev, DiffuseTextureUses(m))
    ensures r <==> (&& ev.canEvaluateFloat(m.uRoughness) && ev.canEvaluateFloat(m.vRoughness)
                    && ev.canEvaluateFloat(m.thickness) && ev.canEvaluateFloat(m.g)
                    && ev.canEvaluateSpectrum(m.reflectance) && ev.canEvaluateSpectrum(m.albedo))
  {
    assert FloatIds(DiffuseTextureUses(m)) == {m.uRoughness, m.vRoughness, m.thickness, m.g};
    assert SpectrumIds(DiffuseTextureUses(m)) == {m.reflectance, m.albedo};
    Declares(ev, DiffuseTextureUses(m))
  }

  /** Interface and conductor roughness, thickness and g are read immediately;
      the conductor's eta, k and reflectance and the albedo may be deferred. */
  function ConductorTextureUses(m: CoatedConductorMaterial): (u: TextureUse) {
    TextureUse([Some(m.interfaceURoughness), Some(m.interfaceVRoughness), Some(m.thickness),
                Some(m.g), Some(m.conductorURoughness), Some(m.conductorVRoughness)],
               [m.conductorEta, m.k, m.reflectance, Some(m.albedo)])
  }

  function CanEvaluateConductorTextures(m: CoatedConductorMaterial, ev: TextureEvaluator): (r: bool)
    ensures r == Declares(ev, ConductorTextureUses(m))
    ensures r <==> (&& ev.canEvaluateFloat(m.interfaceURoughness) && ev.canEvaluateFloat(m.interfaceVRoughness)
                    && ev.canEvaluateFloat(m.thickness) && ev.canEvaluateFloat(m.g)
                    && ev.canEvaluateFloat(m.conductorURoughness) && ev.canEvaluateFloat(m.conductorVRoughness)
                    && (m.conductorEta.Some? ==> ev.canEvaluateSpectrum(m.conductorEta.value))
                    && (m.k.Some? ==> ev.canEvaluateSpectrum(m.k.value))
                    && (m.reflectance.Some? ==> ev.canEvaluateSpectrum(m.reflectance.value))
                    && ev.canEvaluateSpectrum(m.albedo))
  {
    var u := ConductorTextureUses(m);
    assert u.floats[0] == Some(m.interfaceURoughness) && u.floats[1] == Some(m.interfaceVRoughness);
    assert u.floats[2] == Some(m.thickness) && u.floats[3] == Some(m.g);
    assert u.floats[4] == Some(m.conductorURoughness) && u.floats[5] == Some(m.conductorVRoughness);
    assert u.spectra[0] == m.conductorEta && u.spectra[1] == m.k;
    assert u.spectra[2] == m.reflectance && u.spectra[3] == Some(m.albedo);
    Declares(ev, u)
  }

  function GetDiffuseBSDF(m: CoatedDiffuseMaterial, ev: TextureEvaluator, ctx: MaterialEvalContext,
                          lambda: SampledWavelengths, lb: LayeredBuilders): (r: Evaluated)
    ensures r.bsdf.ns == ctx.ns && r.bsdf.dpdus == ctx.dpdus
    ensures r.bsdf.bxdf.CoatedDiffuseBxDF?
  {
    var (detail, lambda') := lb.coatedDiffuse(m, ev, ctx, lambda);
    Evaluated(BSDF(ctx.ns, ctx.dpdus, CoatedDiffuseBxDF(detail)), lambda')
  }

  function GetConductorBSDF(m: CoatedConductorMaterial, ev: TextureEvaluator, ctx: MaterialEvalContext,
                            lambda: SampledWavelengths, lb: LayeredBuilders): (r: Evaluated)
    ensures r.bsdf.ns == ctx.ns && r.bsdf.dpdus == ctx.dpdus
    ensures r.bsdf.bxdf.CoatedConductorBxDF?
  {
    var (detail, lambda') := lb.coatedConductor(m, ev, ctx, lambda);
    Evaluated(BSDF(ctx.ns, ctx.dpdus, CoatedConductorBxDF(detail)), lambda')
  }
}

=== FILE: conductor.dfy ===
/** The conductor material: either an explicit complex index of refraction
    (eta and k spectra), or a reflectance from which an equivalent index is
    derived, plus two roughness textures. */
module ConductorMaterials {
  import opened Wrappers
  import opened Handles
  import opened Spectra
  import opened Textures
  import opened Scattering
  import opened Numerics
  import opened Roughness

  datatype ConductorMaterial = ConductorMaterial(
    eta: Option<SpectrumTexture>, k: Option<SpectrumTexture>, reflectance: Option<SpectrumTexture>,
    uRoughness: FloatTexture, vRoughness: FloatTexture,
    displacement: Option<FloatTexture>, normalMap: Option<ImageHandle>,
    remapRoughness: bool)

  /** What construction guarantees: k accompanies eta, and without eta a
      reflectance is present. */
  predicate Valid(m: ConductorMaterial) {
    && (m.eta.Some? ==> m.k.Some?)
    && (m.eta.None? ==> m.reflectance.Some?)
  }

  /** The denominator of the reflectance inversion is nonzero in every
      component. Under IEEE arithmetic a zero gives an infinite k; over the
      reals the division is undefined, so the inversion requires this. */
  predicate InversionDefined(r: SampledSpectrum, sqrt: real -> real) {
    forall i :: 0 <= i < NSpectrumSamples ==> sqrt(Max(0.0, 1.0 - r[i])) != 0.0
  }

  /** One component of the inversion: k = 2 sqrt(r) / sqrt(max(0, 1 - r)). */
  function KComponent(r: real, sqrt: real -> real): (k: real)
    requires sqrt(Max(0.0, 1.0 - r)) != 0.0
  {
    2.0 * sqrt(r) / sqrt(Max(0.0, 1.0 - r))
  }

  /** Absorption k equivalent to a reflectance, componentwise. */
  function KFromReflectance(r: SampledSpectrum, sqrt: real -> real): (k: SampledSpectrum)
    requires InversionDefined(r, sqrt)
    ensures forall i :: 0 <= i < NSpectrumSamples ==> k[i] == KComponent(r[i], sqrt)
  {
    seq(NSpectrumSamples, i requires 0 <= i < NSpectrumSamples => KComponent(r[i], sqrt))
  }

  /** Roughness textures are read immediately; eta, k and reflectance may be
      deferred. */
  function TextureUses(m: ConductorMaterial): (u: TextureUse) {
    TextureUse([Some(m.uRoughness), Some(m.vRoughness)], [m.eta, m.k, m.reflectance])
  }

  function CanEvaluateTextures(m: ConductorMaterial, ev: TextureEvaluator): (r: bool)
    ensures r == Declares(ev, TextureUses(m))
    ensures r <==> (&& ev.canEvaluateFloat(m.uRoughness) && ev.canEvaluateFloat(m.vRoughness)
                    && (m.eta.Some? ==> ev.canEvaluateSpectrum(m.eta.value))
                    && (m.k.Some? ==> ev.canEvaluateSpectrum(m.k.value))
                    && (m.reflectance.Some? ==> ev.canEvaluateSpectrum(m.reflectance.value)))
  {
    var u := TextureUses(m);
    assert FloatIds(u) == {m.uRoughness, m.vRoughness};
    assert forall t :: t in SpectrumIds(u) <==> (m.eta == Some(t) || m.k == Some(t) || m.reflectance == Some(t));
    Declares(ev, u)
  }

  /** The reflectance the inversion path reads. */
  function Reflectance(m: ConductorMaterial, ev: TextureEvaluator, ctx: MaterialEvalContext,
                       lambda: SampledWavelengths): (r: SampledSpectrum)
    requires m.reflectance.Some?
  {
    ev.evalSpectrum(m.reflectance.value, ctx.tex, lambda)
  }

  /** What the source needs for the BSDF to be defined. */
  predicate GetBSDFDefined(m: ConductorMaterial, ev: TextureEvaluator, ctx: MaterialEvalContext,
                           lambda: SampledWavelengths, nx: Externals)
  {
    Valid(m) && (m.eta.None? ==> InversionDefined(Reflectance(m, ev, ctx, lambda), nx.sqrt))
  }

  function GetBSDF(m: ConductorMaterial, ev: TextureEvaluator, ctx: MaterialEvalContext,
                   lambda: SampledWavelengths, nx: Externals): (r: Evaluated)
    requires GetBSDFDefined(m, ev, ctx, lambda, nx)
    ensures r.lambda == lambda
    ensures r.bsdf.ns == ctx.ns && r.bsdf.dpdus == ctx.dpdus
    ensures r.bsdf.bxdf.ConductorBxDF?
    ensures r.bsdf.bxdf.distrib == ResolveRoughness(ev, ctx.tex, m.uRoughness, m.vRoughness, m.remapRoughness, nx)
    ensures m.eta.Some? ==>
      && r.bsdf.bxdf.etas == ev.evalSpectrum(m.eta.value, ctx.tex, lambda)
      && r.bsdf.bxdf.ks == ev.evalSpectrum(m.k.value, ctx.tex, lambda)
    ensures m.eta.None? ==>
      && (forall i :: 0 <= i < NSpectrumSamples ==> r.bsdf.bxdf.etas[i] == 1.0)
      && r.bsdf.bxdf.ks == KFromReflectance(Reflectance(m, ev, ctx, lambda), nx.sqrt)
  {
    var distrib := ResolveRoughness(ev, ctx.tex, m.uRoughness, m.vRoughness, m.remapRoughness, nx);
    var bxdf :=
      if m.eta.Some? then
        ConductorBxDF(distrib, ev.evalSpectrum(m.eta.value, ctx.tex, lambda), ev.evalSpectrum(m.k.value, ctx.tex, lambda))
      else
        ConductorBxDF(distrib, Uniform(1.0), KFromReflectance(Reflectance(m, ev, ctx, lambda), nx.sqrt));
    Evaluated(BSDF(ctx.ns, ctx.dpdus, bxdf), lambda)
  }

  /** With a genuine square root, the inversion is defined exactly when every
      reflectance component is below 1. */
  lemma {:induction false} InversionDefinedIffBelowOne(r: SampledSpectrum, sqrt: real -> real)
    requires IsSquareRoot(sqrt)
    ensures InversionDefined(r, sqrt) <==> forall i :: 0 <= i < NSpectrumSamples ==> r[i] < 1.0
  {
    forall i | 0 <= i < NSpectrumSamples
      ensures sqrt(Max(0.0, 1.0 - r[i])) != 0.0 <==> r[i] < 1.0
    {
      if r[i] < 1.0 {
        assert sqrt(0.0) < sqrt(1.0 - r[i]);
      }
    }
  }

  /** Zero reflectance gives zero absorption. */
  lemma {:induction false} ZeroReflectanceGivesZeroK(r: SampledSpectrum, sqrt: real -> real, i: nat)
    requires IsSquareRoot(sqrt)
    requires InversionDefined(r, sqrt)
    requires i < NSpectrumSamples && r[i] == 0.0
    ensures KFromReflectance(r, sqrt)[i] == 0.0
  {
    assert sqrt(r[i]) == 0.0;
  }

  /** Quotient monotonicity: a larger non-negative numerator over a smaller
      positive denominator gives a strictly larger quotient. */
  lemma QuotientIncreases(a1: real, a2: real, b1: real, b2: real)
    requires 0.0 <= a1 < a2
    requires b1 >= b2 > 0.0
    ensures 2.0 * a1 / b1 < 2.0 * a2 / b2
  {
    assert a1 / b1 <= a1 / b2 by {
      assert a1 / b1 * b1 == a1;
      assert a1 / b2 * b2 == a1;
    }
    assert a1 / b2 < a2 / b2;
  }

  /** The derived absorption grows strictly with the reflectance on [0, 1). */
  lemma {:induction false} KIncreasesWithReflectance(r1: real, r2: real, sqrt: real -> real)
    requires IsSquareRoot(sqrt)
    requires 0.0 <= r1 < r2 < 1.0
    ensures sqrt(Max(0.0, 1.0 - r1)) != 0.0 && sqrt(Max(0.0, 1.0 - r2)) != 0.0
    ensures KComponent(r1, sqrt) < KComponent(r2, sqrt)
  {
    assert Max(0.0, 1.0 - r1) == 1.0 - r1 && Max(0.0, 1.0 - r2) == 1.0 - r2;
    var a1, a2 := sqrt(r1), sqrt(r2);
    var b1, b2 := sqrt(1.0 - r1), sqrt(1.0 - r2);
    assert sqrt(0.0) <= a1 < a2;
    assert b1 > b2 > sqrt(0.0);
    QuotientIncreases(a1, a2, b1, b2);
  }

  /** The BSDF depends on the evaluator only through the declared textures. */
  lemma GetBSDFReadsOnlyDeclared(m: ConductorMaterial, e1: TextureEvaluator, e2: TextureEvaluator,
                                 ctx: MaterialEvalContext, lambda: SampledWavelengths, nx: Externals)
    requires GetBSDFDefined(m, e1, ctx, lambda, nx) && GetBSDFDefined(m, e2, ctx, lambda, nx)
    requires AgreeOn(e1, e2, TextureUses(m), ctx.tex, lambda)
    ensures GetBSDF(m, e1, ctx, lambda, nx) == GetBSDF(m, e2, ctx, lambda, nx)
  {
    var u := TextureUses(m);
    assert Some(m.uRoughness) in u.floats && Some(m.vRoughness) in u.floats;
    assert m.eta.Some? ==> m.eta in u.spectra && m.k in u.spectra;
    assert m.reflectance.Some? ==> m.reflectance in u.spectra;
  }
}

=== FILE: dielectric.dfy ===
/** The rough or smooth dielectric material: an index-of-refraction spectrum
    and two roughness textures. */
module DielectricMaterials {
  import opened Wrappers
  import opened Handles
  import opened Spectra
  import opened Textures
  import opened Scattering
  import opened Numerics
  import opened Roughness

  datatype DielectricMaterial = DielectricMaterial(
    uRoughness: FloatTexture, vRoughness: FloatTexture, eta: Spectrum,
    displacement: Option<FloatTexture>, normalMap: Option<ImageHandle>,
    remapRoughness: bool)

  /** The index of refraction at the hero wavelength, with 0 read as 1, and the
      wavelengths after the call: a spectrum that is not of the constant kind
      is dispersive and leaves only the hero wavelength active. */
  function SampleEta(eta: Spectrum, lambda: SampledWavelengths): (r: (real, SampledWavelengths))
    ensures r.0 != 0.0
    ensures eta.Sample(lambda.lambda[0]) != 0.0 ==> r.0 == eta.Sample(lambda.lambda[0])
    ensures eta.Sample(lambda.lambda[0]) == 0.0 ==> r.0 == 1.0
    ensures eta.ConstantSpectrum? ==> r.1 == lambda
    ensures !eta.ConstantSpectrum? ==> r.1.secondaryTerminated && r.1.lambda == lambda.lambda
  {
    var sampledEta := eta.Sample(lambda.lambda[0]);
    var lambda' := if !eta.ConstantSpectrum? then lambda.TerminateSecondary() else lambda;
    (if sampledEta == 0.0 then 1.0 else sampledEta, lambda')
  }

  /** Only the two roughness textures are read, both immediately. */
  function TextureUses(m: DielectricMaterial): (u: TextureUse) {
    TextureUse([Some(m.uRoughness), Some(m.vRoughness)], [])
  }

  function CanEvaluateTextures(m: DielectricMaterial, ev: TextureEvaluator): (r: bool)
    ensures r == Declares(ev, TextureUses(m))
    ensures r <==> ev.canEvaluateFloat(m.uRoughness) && ev.canEvaluateFloat(m.vRoughness)
  {
    var u := TextureUses(m);
    assert m.uRoughness in FloatIds(u) && m.vRoughness in FloatIds(u);
    assert FloatIds(u) == {m.uRoughness, m.vRoughness};
    Declares(ev, u)
  }

  function GetBSDF(m: DielectricMaterial, ev: TextureEvaluator, ctx: MaterialEvalContext,
                   lambda: SampledWavelengths, nx: Externals): (r: Evaluated)
    ensures r.bsdf.ns == ctx.ns && r.bsdf.dpdus == ctx.dpdus
    ensures r.bsdf.bxdf.DielectricBxDF?
    ensures r.bsdf.bxdf.eta != 0.0
    ensures m.eta.Sample(lambda.lambda[0]) != 0.0 ==> r.bsdf.bxdf.eta == m.eta.Sample(lambda.lambda[0])
    ensures m.eta.Sample(lambda.lambda[0]) == 0.0 ==> r.bsdf.bxdf.eta == 1.0
    ensures r.bsdf.bxdf.distrib == ResolveRoughness(ev, ctx.tex, m.uRoughness, m.vRoughness, m.remapRoughness, nx)
    ensures r.lambda.lambda == lambda.lambda
    ensures r.lambda.secondaryTerminated <==> lambda.secondaryTerminated || !m.eta.ConstantSpectrum?
  {
    var (sampledEta, lambda') := SampleEta(m.eta, lambda);
    var distrib := ResolveRoughness(ev, ctx.tex, m.uRoughness, m.vRoughness, m.remapRoughness, nx);
    Evaluated(BSDF(ctx.ns, ctx.dpdus, DielectricBxDF(sampledEta, distrib)), lambda')
  }

  /** A sampled index of refraction of exactly 0 is treated as 1: two materials
      that differ only in an index spectrum sampling 0 versus one sampling 1
      (of the same kind) build the same BSDF and leave the same wavelengths. */
  lemma EtaZeroActsAsOne(m: DielectricMaterial, zero: Spectrum, one: Spectrum,
                         ev: TextureEvaluator, ctx: MaterialEvalContext,
                         lambda: SampledWavelengths, nx: Externals)
    requires zero.Sample(lambda.lambda[0]) == 0.0 && one.Sample(lambda.lambda[0]) == 1.0
    requires zero.ConstantSpectrum? == one.ConstantSpectrum?
    ensures GetBSDF(m.(eta := zero), ev, ctx, lambda, nx) == GetBSDF(m.(eta := one), ev, ctx, lambda, nx)
  {
  }

  /** The BSDF depends on the evaluator only through the declared textures:
      evaluators that agree on them build the same BSDF. */
  lemma GetBSDFReadsOnlyDeclared(m: DielectricMaterial, e1: TextureEvaluator, e2: TextureEvaluator,
                                 ctx: MaterialEvalContext, lambda: SampledWavelengths, nx: Externals)
    requires AgreeOn(e1, e2, TextureUses(m), ctx.tex, lambda)
    ensures GetBSDF(m, e1, ctx, lambda, nx) == GetBSDF(m, e2, ctx, lambda, nx)
  {
    assert m.uRoughness in FloatIds(TextureUses(m));
    assert m.vRoughness in FloatIds(TextureUses(m));
  }

  /** Evaluating again with the wavelengths a first evaluation left behind
      gives the same BSDF and changes the wavelengths no further. */
  lemma ReevaluationIsStable(m: DielectricMaterial, ev: TextureEvaluator, ctx: MaterialEvalContext,
                             lambda: SampledWavelengths, nx: Externals)
    ensures GetBSDF(m, ev, ctx, GetBSDF(m, ev, ctx, lambda, nx).lambda, nx) == GetBSDF(m, ev, ctx, lambda, nx)
  {
  }
}

=== FILE: diffuse.dfy ===
/** The diffuse material: a reflectance spectrum and a roughness angle sigma,
    both clamped to their physical ranges before the BxDF is built. */
module DiffuseMaterials {
  import opened Wrappers
  import opened Handles
  import opened Spectra
  import opened Textures
  import opened Scattering

  datatype DiffuseMaterial = DiffuseMaterial(
    reflectance: SpectrumTexture, sigma: FloatTexture,
    displacement: Option<FloatTexture>, normalMap: Option<ImageHandle>)

  /** Largest roughness angle, in degrees. */
  const MaxSigma: real := 90.0

  /** sigma is read immediately; the reflectance may be deferred. */
  function TextureUses(m: DiffuseMaterial): (u: TextureUse) {
    TextureUse([Some(m.sigma)], [Some(m.reflectance)])
  }

  function CanEvaluateTextures(m: DiffuseMaterial, ev: TextureEvaluator): (r: bool)
    ensures r == Declares(ev, TextureUses(m))
    ensures r <==> ev.canEvaluateFloat(m.sigma) && ev.canEvaluateSpectrum(m.reflectance)
  {
    assert FloatIds(TextureUses(m)) == {m.sigma};
    assert SpectrumIds(TextureUses(m)) == {m.reflectance};
    Declares(ev, TextureUses(m))
  }

  /** A reflecting-only rough diffuse BxDF: reflectance in [0, 1] componentwise
      (in-range values kept), no transmission, sigma in [0, 90] (in-range
      values kept). */
  function GetBSDF(m: DiffuseMaterial, ev: TextureEvaluator, ctx: MaterialEvalContext,
                   lambda: SampledWavelengths): (r: Evaluated)
    ensures r.lambda == lambda
    ensures r.bsdf.ns == ctx.ns && r.bsdf.dpdus == ctx.dpdus
    ensures r.bsdf.bxdf.RoughDiffuseBxDF?
    ensures InUnitRange(r.bsdf.bxdf.r)
    ensures forall i :: 0 <= i < NSpectrumSamples ==> r.bsdf.bxdf.t[i] == 0.0
    ensures 0.0 <= r.bsdf.bxdf.sigma <= MaxSigma
    ensures var refl := ev.evalSpectrum(m.reflectance, ctx.tex, lambda);
            forall i :: 0 <= i < NSpectrumSamples && 0.0 <= refl[i] <= 1.0 ==> r.bsdf.bxdf.r[i] == refl[i]
    ensures 0.0 <= ev.evalFloat(m.sigma, ctx.tex) <= MaxSigma ==> r.bsdf.bxdf.sigma == ev.evalFloat(m.sigma, ctx.tex)
    ensures ev.evalFloat(m.sigma, ctx.tex) < 0.0 ==> r.bsdf.bxdf.sigma == 0.0
    ensures ev.evalFloat(m.sigma, ctx.tex) > MaxSigma ==> r.bsdf.bxdf.sigma == MaxSigma
  {
    var refl := Clamp(ev.evalSpectrum(m.reflectance, ctx.tex, lambda), 0.0, 1.0);
    var sig := ClampReal(ev.evalFloat(m.sigma, ctx.tex), 0.0, MaxSigma);
    Evaluated(BSDF(ctx.ns, ctx.dpdus, RoughDiffuseBxDF(refl, Uniform(0.0), sig)), lambda)
  }

  /** Out-of-range reflectance saturates at the bound: above 1 reads as 1,
      below 0 as 0. */
  lemma ReflectanceSaturates(m: DiffuseMaterial, ev: TextureEvaluator, ctx: MaterialEvalContext,
                             lambda: SampledWavelengths, i: nat)
    requires i < NSpectrumSamples
    ensures var refl := ev.evalSpectrum(m.reflectance, ctx.tex, lambda);
            var b := GetBSDF(m, ev, ctx, lambda).bsdf.bxdf;
            && (refl[i] > 1.0 ==> b.r[i] == 1.0)
            && (refl[i] < 0.0 ==> b.r[i] == 0.0)
  {
  }

  /** A constant reflectance of 0.5 with sigma 0 gives a Lambertian-equivalent
      BxDF of albedo 0.5 and no roughness term, at every context. */
  lemma ConstantHalfReflectance(m: DiffuseMaterial, ev: TextureEvaluator, ctx: MaterialEvalContext,
                                lambda: SampledWavelengths)
    requires ev.evalSpectrum(m.reflectance, ctx.tex, lambda) == Uniform(0.5)
    requires ev.evalFloat(m.sigma, ctx.tex) == 0.0
    ensures GetBSDF(m, ev, ctx, lambda).bsdf.bxdf == RoughDiffuseBxDF(Uniform(0.5), Uniform(0.0), 0.0)
  {
    ClampIdempotent(Uniform(0.5), 0.0, 1.0);
  }

  /** The BSDF depends on the evaluator only through the declared textures. */
  lemma GetBSDFReadsOnlyDeclared(m: DiffuseMaterial, e1: TextureEvaluator, e2: TextureEvaluator,
                                 ctx: MaterialEvalContext, lambda: SampledWavelengths)
    requires AgreeOn(e1, e2, TextureUses(m), ctx.tex, lambda)
    ensures GetBSDF(m, e1, ctx, lambda) == GetBSDF(m, e2, ctx, lambda)
  {
    assert Some(m.sigma) in TextureUses(m).floats;
    assert Some(m.reflectance) in TextureUses(m).spectra;
  }
}

=== FILE: diffusetransmission.dfy ===
/** The diffuse transmission material: scaled reflectance and transmittance,
    each clamped to [0, 1], and a roughness angle passed through unclamped. */
module DiffuseTransmissionMaterials {
  import opened Wrappers
  import opened Handles
  import opened Spectra
  import opened Textures
  import opened Scattering

  datatype DiffuseTransmissionMaterial = DiffuseTransmissionMaterial(
    reflectance: SpectrumTexture, transmittance: SpectrumTexture, sigma: FloatTexture,
    displacement: Option<FloatTexture>, normalMap: Option<ImageHandle>, scale: real)

  function TextureUses(m: DiffuseTransmissionMaterial): (u: TextureUse) {
    TextureUse([Some(m.sigma)], [Some(m.reflectance), Some(m.transmittance)])
  }

  function CanEvaluateTextures(m: DiffuseTransmissionMaterial, ev: TextureEvaluator): (r: bool)
    ensures r == Declares(ev, TextureUses(m))
    ensures r <==> (ev.canEvaluateFloat(m.sigma)
                    && ev.canEvaluateSpectrum(m.reflectance) && ev.canEvaluateSpectrum(m.transmittance))
  {
    assert FloatIds(TextureUses(m)) == {m.sigma};
    assert SpectrumIds(TextureUses(m)) == {m.reflectance, m.transmittance};
    Declares(ev, TextureUses(m))
  }

  function GetBSDF(m: DiffuseTransmissionMaterial, ev: TextureEvaluator, ctx: MaterialEvalContext,
                   lambda: SampledWavelengths): (r: Evaluated)
    ensures r.lambda == lambda
    ensures r.bsdf.ns == ctx.ns && r.bsdf.dpdus == ctx.dpdus
    ensures r.bsdf.bxdf.RoughDiffuseBxDF?
    ensures InUnitRange(r.bsdf.bxdf.r) && InUnitRange(r.bsdf.bxdf.t)
    ensures var refl := ev.evalSpectrum(m.reflectance, ctx.tex, lambda);
            forall i :: 0 <= i < NSpectrumSamples ==>
              && (0.0 <= m.scale * refl[i] <= 1.0 ==> r.bsdf.bxdf.r[i] == m.scale * refl[i])
              && (m.scale * refl[i] < 0.0 ==> r.bsdf.bxdf.r[i] == 0.0)
              && (m.scale * refl[i] > 1.0 ==> r.bsdf.bxdf.r[i] == 1.0)
    ensures var tr := ev.evalSpectrum(m.transmittance, ctx.tex, lambda);
            forall i :: 0 <= i < NSpectrumSamples ==>
              && (0.0 <= m.scale * tr[i] <= 1.0 ==> r.bsdf.bxdf.t[i] == m.scale * tr[i])
              && (m.scale * tr[i] < 0.0 ==> r.bsdf.bxdf.t[i] == 0.0)
              && (m.scale * tr[i] > 1.0 ==> r.bsdf.bxdf.t[i] == 1.0)
    ensures r.bsdf.bxdf.sigma == ev.evalFloat(m.sigma, ctx.tex)
  {
    var refl := Clamp(ScaleSpectrum(m.scale, ev.evalSpectrum(m.reflectance, ctx.tex, lambda)), 0.0, 1.0);
    var tr := Clamp(ScaleSpectrum(m.scale, ev.evalSpectrum(m.transmittance, ctx.tex, lambda)), 0.0, 1.0);
    var s := ev.evalFloat(m.sigma, ctx.tex);
    Evaluated(BSDF(ctx.ns, ctx.dpdus, RoughDiffuseBxDF(refl, tr, s)), lambda)
  }

  /** The BSDF depends on the evaluator only through the declared textures. */
  lemma GetBSDFReadsOnlyDeclared(m: DiffuseTransmissionMaterial, e1: TextureEvaluator, e2: TextureEvaluator,
                                 ctx: MaterialEvalContext, lambda: SampledWavelengths)
    requires AgreeOn(e1, e2, TextureUses(m), ctx.tex, lambda)
    ensures GetBSDF(m, e1, ctx, lambda) == GetBSDF(m, e2, ctx, lambda)
  {
    assert Some(m.sigma) in TextureUses(m).floats;
    assert Some(m.reflectance) in TextureUses(m).spectra;
    assert Some(m.transmittance) in TextureUses(m).spectra;
  }
}

=== FILE: geometry.dfy ===
/** Points, vectors and normals over the reals. Floating-point rounding is not
    modelled: every `Float` of the renderer is a mathematical real here. */
module Geometry {

  /** Points, vectors and normals share one three-component representation. */
  datatype Vector3 = Vector3(x: real, y: real, z: real)

  datatype Point2 = Point2(u: real, v: real)

  function Add(a: Vector3, b: Vector3): (r: Vector3) {
    Vector3(a.x + b.x, a.y + b.y, a.z + b.z)
  }

  function Scale(k: real, a: Vector3): (r: Vector3) {
    Vector3(k * a.x, k * a.y, k * a.z)
  }

  function Abs(x: real): (r: real)
    ensures r >= 0.0
    ensures r == x || r == -x
  {
    if x < 0.0 then -x else x
  }
}

=== FILE: hair.dfy ===
/** The hair material. The absorption coefficient comes from exactly one of
    three sources, taken in priority order: an explicit absorption texture, a
    reflectance colour, or eumelanin/pheomelanin concentrations. */
module HairMaterials {
  import opened Wrappers
  import opened Handles
  import opened Spectra
  import opened Textures
  import opened Scattering
  import opened Numerics

  datatype HairMaterial = HairMaterial(
    sigmaA: Option<SpectrumTexture>, color: Option<SpectrumTexture>,
    eumelanin: Option<FloatTexture>, pheomelanin: Option<FloatTexture>,
    eta: FloatTexture, betaM: FloatTexture, betaN: FloatTexture, alpha: FloatTexture)

  /** Floor of the longitudinal and azimuthal roughness. */
  const MinBeta: real := 0.01

  /** Some source of absorption is configured. */
  predicate HasAbsorptionSource(m: HairMaterial) {
    m.sigmaA.Some? || m.color.Some? || m.eumelanin.Some? || m.pheomelanin.Some?
  }

  /** Float textures are needed immediately; the two spectral sources may be
      deferred. */
  function TextureUses(m: HairMaterial): (u: TextureUse) {
    TextureUse([m.eumelanin, m.pheomelanin, Some(m.eta), Some(m.betaM), Some(m.betaN), Some(m.alpha)],
               [m.sigmaA, m.color])
  }

  function CanEvaluateTextures(m: HairMaterial, ev: TextureEvaluator): (r: bool)
    ensures r == Declares(ev, TextureUses(m))
    ensures r <==> (&& ev.canEvaluateFloat(m.eta) && ev.canEvaluateFloat(m.betaM)
                    && ev.canEvaluateFloat(m.betaN) && ev.canEvaluateFloat(m.alpha)
                    && (m.eumelanin.Some? ==> ev.canEvaluateFloat(m.eumelanin.value))
                    && (m.pheomelanin.Some? ==> ev.canEvaluateFloat(m.pheomelanin.value))
                    && (m.sigmaA.Some? ==> ev.canEvaluateSpectrum(m.sigmaA.value))
                    && (m.color.Some? ==> ev.canEvaluateSpectrum(m.color.value)))
  {
    var u := TextureUses(m);
    assert u.floats[0] == m.eumelanin && u.floats[1] == m.pheomelanin && u.floats[2] == Some(m.eta);
    assert u.floats[3] == Some(m.betaM) && u.floats[4] == Some(m.betaN) && u.floats[5] == Some(m.alpha);
    assert u.spectra[0] == m.sigmaA && u.spectra[1] == m.color;
    Declares(ev, u)
  }

  /** A melanin concentration: an absent texture reads as 0, and negative
      values are raised to 0. */
  function Concentration(ev: TextureEvaluator, t: Option<FloatTexture>, ctx: TextureEvalContext): (c: real)
    ensures c >= 0.0
    ensures t.None? ==> c == 0.0
    ensures t.Some? && ev.evalFloat(t.value, ctx) >= 0.0 ==> c == ev.evalFloat(t.value, ctx)
    ensures t.Some? && ev.evalFloat(t.value, ctx) < 0.0 ==> c == 0.0
  {
    Max(0.0, if t.Some? then ev.evalFloat(t.value, ctx) else 0.0)
  }

  /** The absorption coefficient from the highest-priority configured source. */
  function AbsorptionCoefficient(m: HairMaterial, ev: TextureEvaluator, ctx: TextureEvalContext,
                                 lambda: SampledWavelengths, bn: real, nx: Externals): (r: Result<SampledSpectrum, MaterialError>)
    ensures r.Failure? <==> !HasAbsorptionSource(m)
    ensures r.Failure? ==> r.error == NoHairAbsorptionSource
    ensures m.sigmaA.Some? ==> r == Success(ClampZero(ev.evalSpectrum(m.sigmaA.value, ctx, lambda)))
    ensures m.sigmaA.None? && m.color.Some? ==>
              r == Success(nx.sigmaAFromReflectance(Clamp(ev.evalSpectrum(m.color.value, ctx, lambda), 0.0, 1.0), bn, lambda))
    ensures m.sigmaA.None? && m.color.None? && HasAbsorptionSource(m) ==>
              r == Success(nx.sigmaAFromConcentration(Concentration(ev, m.eumelanin, ctx),
                                                      Concentration(ev, m.pheomelanin, ctx), lambda))
  {
    if m.sigmaA.Some? then
      Success(ClampZero(ev.evalSpectrum(m.sigmaA.value, ctx, lambda)))
    else if m.color.Some? then
      var c := Clamp(ev.evalSpectrum(m.color.value, ctx, lambda), 0.0, 1.0);
      Success(nx.sigmaAFromReflectance(c, bn, lambda))
    else if !(m.eumelanin.Some? || m.pheomelanin.Some?) then
      Failure(NoHairAbsorptionSource)
    else
      Success(nx.sigmaAFromConcentration(Concentration(ev, m.eumelanin, ctx),
                                         Concentration(ev, m.pheomelanin, ctx), lambda))
  }

  /** Builds the hair BxDF, or fails when no absorption source is configured. */
  function GetBSDF(m: HairMaterial, ev: TextureEvaluator, ctx: MaterialEvalContext,
                   lambda: SampledWavelengths, nx: Externals): (r: Result<Evaluated, MaterialError>)
    ensures r.Failure? <==> !HasAbsorptionSource(m)
    ensures r.Success? ==> r.value.lambda == lambda
    ensures r.Success? ==> r.value.bsdf.ns == ctx.ns && r.value.bsdf.dpdus == ctx.dpdus
    ensures r.Success? ==> r.value.bsdf.bxdf.HairBxDF?
    ensures r.Success? ==> var b := r.value.bsdf.bxdf;
      && b.betaM >= MinBeta && b.betaN >= MinBeta
      && (ev.evalFloat(m.betaM, ctx.tex) >= MinBeta ==> b.betaM == ev.evalFloat(m.betaM, ctx.tex))
      && (ev.evalFloat(m.betaN, ctx.tex) >= MinBeta ==> b.betaN == ev.evalFloat(m.betaN, ctx.tex))
      && (ev.evalFloat(m.betaM, ctx.tex) < MinBeta ==> b.betaM == MinBeta)
      && (ev.evalFloat(m.betaN, ctx.tex) < MinBeta ==> b.betaN == MinBeta)
      && b.alpha == ev.evalFloat(m.alpha, ctx.tex)
      && b.eta == ev.evalFloat(m.eta, ctx.tex)
      && b.h == 2.0 * ctx.tex.uv.v - 1.0
      && (0.0 <= ctx.tex.uv.v <= 1.0 ==> -1.0 <= b.h <= 1.0)
      && Success(b.sigmaA) == AbsorptionCoefficient(m, ev, ctx.tex, lambda, b.betaN, nx)
  {
    var bm := Max(MinBeta, ev.evalFloat(m.betaM, ctx.tex));
    var bn := Max(MinBeta, ev.evalFloat(m.betaN, ctx.tex));
    var a := ev.evalFloat(m.alpha, ctx.tex);
    var e := ev.evalFloat(m.eta, ctx.tex);
    match AbsorptionCoefficient(m, ev, ctx.tex, lambda, bn, nx)
    case Failure(err) => Failure(err)
    case Success(sigA) =>
      // Offset along the width of the curve.
      var h := -1.0 + 2.0 * ctx.tex.uv.v;
      Success(Evaluated(BSDF(ctx.ns, ctx.dpdus, HairBxDF(h, e, sigA, bm, bn, a)), lambda))
  }

  /** Priority: once an absorption texture is configured, the colour and
      melanin inputs are irrelevant; once a colour is configured, melanin is. */
  lemma SourcePriority(m: HairMaterial, ev: TextureEvaluator, ctx: MaterialEvalContext,
                       lambda: SampledWavelengths, nx: Externals,
                       color: Option<SpectrumTexture>, eu: Option<FloatTexture>, pheo: Option<FloatTexture>)
    ensures m.sigmaA.Some? ==>
      GetBSDF(m, ev, ctx, lambda, nx) == GetBSDF(m.(color := color, eumelanin := eu, pheomelanin := pheo), ev, ctx, lambda, nx)
    ensures m.sigmaA.None? && m.color.Some? ==>
      GetBSDF(m, ev, ctx, lambda, nx) == GetBSDF(m.(eumelanin := eu, pheomelanin := pheo), ev, ctx, lambda, nx)
  {
  }

  /** The BSDF depends on the evaluator only through the declared textures. */
  lemma GetBSDFReadsOnlyDeclared(m: HairMaterial, e1: TextureEvaluator, e2: TextureEvaluator,
                                 ctx: MaterialEvalContext, lambda: SampledWavelengths, nx: Externals)
    requires AgreeOn(e1, e2, TextureUses(m), ctx.tex, lambda)
    ensures GetBSDF(m, e1, ctx, lambda, nx) == GetBSDF(m, e2, ctx, lambda, nx)
  {
    var u := TextureUses(m);
    assert Some(m.betaM) in u.floats && Some(m.betaN) in u.floats;
    assert Some(m.alpha) in u.floats && Some(m.eta) in u.floats;
    assert m.eumelanin.Some? ==> m.eumelanin in u.floats;
    assert m.pheomelanin.Some? ==> m.pheomelanin in u.floats;
    assert m.sigmaA.Some? ==> m.sigmaA in u.spectra;
    assert m.color.Some? ==> m.color in u.spectra;
  }
}

=== FILE: handles.dfy ===
/** Opaque identities of objects owned by the scene. The renderer passes these
    around as (tagged) pointers; the model only needs them to be comparable. */
module Handles {

  /** A scalar (float-valued) texture. */
  type FloatTexture = nat

  /** A spectrally varying texture. */
  type SpectrumTexture = nat

  /** A normal-map image. */
  type ImageHandle = nat

  /** A material as seen through the material handle; mixes refer to their
      two sub-materials by handle, and the mix hash mixes these identities. */
  type MaterialHandle = nat

  /** Externally loaded measured BRDF data. */
  type MeasuredBrdf = nat
}

=== FILE: material.dfy ===
/** The material handle: a closed set of variants and the dispatch of every
    material operation to the variant it holds. BxDFs and BSSRDFs are placed in
    a per-shading-event scratch buffer, modelled as the sequence of slots
    allocated so far. */
module Materials {
  import opened Wrappers
  import opened Handles
  import opened Spectra
  import opened Textures
  import opened Scattering
  import opened Numerics
  import DielectricMaterials
  import ThinDielectricMaterials
  import MixMaterials
  import HairMaterials
  import DiffuseMaterials
  import ConductorMaterials
  import CoatedMaterials
  import SubsurfaceMaterials
  import DiffuseTransmissionMaterials
  import MeasuredMaterials

  datatype Material =
    | Dielectric(dielectric: DielectricMaterials.DielectricMaterial)
    | ThinDielectric(thinDielectric: ThinDielectricMaterials.ThinDielectricMaterial)
    | Mix(mix: MixMaterials.MixMaterial)
    | Hair(hair: HairMaterials.HairMaterial)
    | Diffuse(diffuse: DiffuseMaterials.DiffuseMaterial)
    | Conductor(conductor: ConductorMaterials.ConductorMaterial)
    | CoatedDiffuse(coatedDiffuse: CoatedMaterials.CoatedDiffuseMaterial)
    | CoatedConductor(coatedConductor: CoatedMaterials.CoatedConductorMaterial)
    | Subsurface(subsurface: SubsurfaceMaterials.SubsurfaceMaterial)
    | DiffuseTransmission(diffuseTransmission: DiffuseTransmissionMaterials.DiffuseTransmissionMaterial)
    | Measured(measured: MeasuredMaterials.MeasuredMaterial)

  /** One allocation in the scratch buffer. */
  datatype Slot = BxDFSlot(kind: BxDFKind) | BSSRDFSlot

  /** The per-event scratch buffer, as the slots allocated so far. */
  datatype ScratchBuffer = ScratchBuffer(slots: seq<Slot>)
  {
    function Alloc(s: Slot): (r: ScratchBuffer)
      ensures r.slots == slots + [s]
    {
      ScratchBuffer(slots + [s])
    }
  }

  /** A BSDF placed in scratch storage, with the wavelengths after the call. */
  datatype ShadedBSDF = ShadedBSDF(bsdf: BSDF, lambda: SampledWavelengths, scratch: ScratchBuffer)

  /** A subsurface response (absent for variants without one) and the buffer. */
  datatype ShadedBSSRDF = ShadedBSSRDF(bssrdf: Option<TabulatedBSSRDF>, scratch: ScratchBuffer)

  /** The type each variant names as its BxDF: the storage it asks for. */
  function BxDFTypeOf(m: Material): (k: BxDFKind) {
    match m
    case Dielectric(_) => DielectricKind
    case ThinDielectric(_) => ThinDielectricKind
    case Mix(_) => IntPlaceholderKind
    case Hair(_) => HairKind
    case Diffuse(_) => RoughDiffuseKind
    case Conductor(_) => ConductorKind
    case CoatedDiffuse(_) => CoatedDiffuseKind
    case CoatedConductor(_) => CoatedConductorKind
    case Subsurface(_) => DielectricKind
    case DiffuseTransmission(_) => RoughDiffuseKind
    case Measured(_) => MeasuredKind
  }

  /** Whether the variant's BSSRDF type is a real type rather than `void`. */
  predicate HasBSSRDFType(m: Material) {
    m.Subsurface?
  }

  /** Only the subsurface material scatters below the surface. */
  function HasSubsurfaceScattering(m: Material): (r: bool)
    ensures r <==> m.Subsurface?
  {
    match m
    case Subsurface(_) => true
    case _ => false
  }

  /** The textures each variant declares. */
  function TextureUses(m: Material): (u: TextureUse) {
    match m
    case Dielectric(d) => DielectricMaterials.TextureUses(d)
    case ThinDielectric(t) => ThinDielectricMaterials.TextureUses(t)
    case Mix(x) => MixMaterials.TextureUses(x)
    case Hair(h) => HairMaterials.TextureUses(h)
    case Diffuse(d) => DiffuseMaterials.TextureUses(d)
    case Conductor(c) => ConductorMaterials.TextureUses(c)
    case CoatedDiffuse(c) => CoatedMaterials.DiffuseTextureUses(c)
    case CoatedConductor(c) => CoatedMaterials.ConductorTextureUses(c)
    case Subsurface(s) => SubsurfaceMaterials.TextureUses(s)
    case DiffuseTransmission(d) => DiffuseTransmissionMaterials.TextureUses(d)
    case Measured(x) => MeasuredMaterials.TextureUses(x)
  }

  /** The dispatched capability query: the held variant's own declaration. */
  function CanEvaluateTextures(m: Material, ev: TextureEvaluator): (r: bool)
    ensures r == Declares(ev, TextureUses(m))
  {
    match m
    case Dielectric(d) => assert TextureUses(m) == DielectricMaterials.TextureUses(d); DielectricMaterials.CanEvaluateTextures(d, ev)
    case ThinDielectric(t) => assert TextureUses(m) == ThinDielectricMaterials.TextureUses(t); ThinDielectricMaterials.CanEvaluateTextures(t, ev)
    case Mix(x) => assert TextureUses(m) == MixMaterials.TextureUses(x); MixMaterials.CanEvaluateTextures(x, ev)
    case Hair(h) => assert TextureUses(m) == HairMaterials.TextureUses(h); HairMaterials.CanEvaluateTextures(h, ev)
    case Diffuse(d) => assert TextureUses(m) == DiffuseMaterials.TextureUses(d); DiffuseMaterials.CanEvaluateTextures(d, ev)
    case Conductor(c) => assert TextureUses(m) == ConductorMaterials.TextureUses(c); ConductorMaterials.CanEvaluateTextures(c, ev)
    case CoatedDiffuse(c) => assert TextureUses(m) == CoatedMaterials.DiffuseTextureUses(c); CoatedMaterials.CanEvaluateDiffuseTextures(c, ev)
    case CoatedConductor(c) => assert TextureUses(m) == CoatedMaterials.ConductorTextureUses(c); CoatedMaterials.CanEvaluateConductorTextures(c, ev)
    case Subsurface(s) => assert TextureUses(m) == SubsurfaceMaterials.TextureUses(s); SubsurfaceMaterials.CanEvaluateTextures(s, ev)
    case DiffuseTransmission(d) => assert TextureUses(m) == DiffuseTransmissionMaterials.TextureUses(d); DiffuseTransmissionMaterials.CanEvaluateTextures(d, ev)
    case Measured(x) => assert TextureUses(m) == MeasuredMaterials.TextureUses(x); MeasuredMaterials.CanEvaluateTextures(x, ev)
  }

  /** The displacement texture: the held variant's own; hair has none. Mixes
      are resolved before this is asked. */
  function GetDisplacement(m: Material): (r: Option<FloatTexture>)
    requires !m.Mix?
    ensures m.Dielectric? ==> r == m.dielectric.displacement
    ensures m.ThinDielectric? ==> r == m.thinDielectric.displacement
    ensures m.Hair? ==> r.None?
    ensures m.Diffuse? ==> r == m.diffuse.displacement
    ensures m.Conductor? ==> r == m.conductor.displacement
    ensures m.CoatedDiffuse? ==> r == m.coatedDiffuse.displacement
    ensures m.CoatedConductor? ==> r == m.coatedConductor.displacement
    ensures m.Subsurface? ==> r == m.subsurface.displacement
    ensures m.DiffuseTransmission? ==> r == m.diffuseTransmission.displacement
    ensures m.Measured? ==> r == m.measured.displacement
  {
    match m
    case Dielectric(d) => d.displacement
    case ThinDielectric(t) => t.displacement
    case Hair(_) => None
    case Diffuse(d) => d.displacement
    case Conductor(c) => c.displacement
    case CoatedDiffuse(c) => c.displacement
    case CoatedConductor(c) => c.displacement
    case Subsurface(s) => s.displacement
    case DiffuseTransmission(d) => d.displacement
    case Measured(x) => x.displacement
  }

  /** The normal map: the held variant's own; hair has none. Mixes are
      resolved before this is asked. */
  function GetNormalMap(m: Material): (r: Option<ImageHandle>)
    requires !m.Mix?
    ensures m.Dielectric? ==> r == m.dielectric.normalMap
    ensures m.ThinDielectric? ==> r == m.thinDielectric.normalMap
    ensures m.Hair? ==> r.None?
    ensures m.Diffuse? ==> r == m.diffuse.normalMap
    ensures m.Conductor? ==> r == m.conductor.normalMap
    ensures m.CoatedDiffuse? ==> r == m.coatedDiffuse.normalMap
    ensures m.CoatedConductor? ==> r == m.coatedConductor.normalMap
    ensures m.Subsurface? ==> r == m.subsurface.normalMap
    ensures m.DiffuseTransmission? ==> r == m.diffuseTransmission.normalMap
    ensures m.Measured? ==> r == m.measured.normalMap
  {
    match m
    case Dielectric(d) => d.normalMap
    case ThinDielectric(t) => t.normalMap
    case Hair(_) => None
    case Diffuse(d) => d.normalMap
    case Conductor(c) => c.normalMap
    case CoatedDiffuse(c) => c.normalMap
    case CoatedConductor(c) => c.normalMap
    case Subsurface(s) => s.normalMap
    case DiffuseTransmission(d) => d.normalMap
    case Measured(x) => x.normalMap
  }

  /** What the source demands before a BSDF may be requested: the mix has been
      resolved away, and the conductor's inversion is defined. */
  predicate GetBSDFDefined(m: Material, ev: TextureEvaluator, ctx: MaterialEvalContext,
                           lambda: SampledWavelengths, nx: Externals)
  {
    match m
    case Mix(_) => false
    case Conductor(c) => ConductorMaterials.GetBSDFDefined(c, ev, ctx, lambda, nx)
    case _ => true
  }

  /** The variant's own BSDF, before storage is accounted for. */
  function VariantBSDF(m: Material, ev: TextureEvaluator, ctx: MaterialEvalContext,
                       lambda: SampledWavelengths, nx: Externals, lb: CoatedMaterials.LayeredBuilders): (r: Result<Evaluated, MaterialError>)
    requires GetBSDFDefined(m, ev, ctx, lambda, nx)
    ensures r.Success? ==> KindOf(r.value.bsdf.bxdf) == BxDFTypeOf(m)
    ensures r.Success? ==> r.value.bsdf.ns == ctx.ns && r.value.bsdf.dpdus == ctx.dpdus
    ensures r.Failure? <==> m.Hair? && !HairMaterials.HasAbsorptionSource(m.hair)
  {
    match m
    case Dielectric(d) => Success(DielectricMaterials.GetBSDF(d, ev, ctx, lambda, nx))
    case ThinDielectric(t) => Success(ThinDielectricMaterials.GetBSDF(t, ev, ctx, lambda))
    case Hair(h) => HairMaterials.GetBSDF(h, ev, ctx, lambda, nx)
    case Diffuse(d) => Success(DiffuseMaterials.GetBSDF(d, ev, ctx, lambda))
    case Conductor(c) => Success(ConductorMaterials.GetBSDF(c, ev, ctx, lambda, nx))
    case CoatedDiffuse(c) => Success(CoatedMaterials.GetDiffuseBSDF(c, ev, ctx, lambda, lb))
    case CoatedConductor(c) => Success(CoatedMaterials.GetConductorBSDF(c, ev, ctx, lambda, lb))
    case Subsurface(s) => Success(SubsurfaceMaterials.GetBSDF(s, ev, ctx, lambda, nx))
    case DiffuseTransmission(d) => Success(DiffuseTransmissionMaterials.GetBSDF(d, ev, ctx, lambda))
    case Measured(x) => Success(MeasuredMaterials.GetBSDF(x, ev, ctx, lambda))
  }

  /** The dispatch reaches each variant's own BSDF construction, unchanged. */
  lemma {:induction false} VariantBSDFIsVariantsOwn(m: Material, ev: TextureEvaluator, ctx: MaterialEvalContext,
                                                    lambda: SampledWavelengths, nx: Externals, lb: CoatedMaterials.LayeredBuilders)
    requires GetBSDFDefined(m, ev, ctx, lambda, nx)
    ensures var r := VariantBSDF(m, ev, ctx, lambda, nx, lb);
      && (m.Dielectric? ==> r == Success(DielectricMaterials.GetBSDF(m.dielectric, ev, ctx, lambda, nx)))
      && (m.ThinDielectric? ==> r == Success(ThinDielectricMaterials.GetBSDF(m.thinDielectric, ev, ctx, lambda)))
      && (m.Hair? ==> r == HairMaterials.GetBSDF(m.hair, ev, ctx, lambda, nx))
      && (m.Diffuse? ==> r == Success(DiffuseMaterials.GetBSDF(m.diffuse, ev, ctx, lambda)))
      && (m.Conductor? ==> r == Success(ConductorMaterials.GetBSDF(m.conductor, ev, ctx, lambda, nx)))
      && (m.CoatedDiffuse? ==> r == Success(CoatedMaterials.GetDiffuseBSDF(m.coatedDiffuse, ev, ctx, lambda, lb)))
      && (m.CoatedConductor? ==> r == Success(CoatedMaterials.GetConductorBSDF(m.coatedConductor, ev, ctx, lambda, lb)))
      && (m.Subsurface? ==> r == Success(SubsurfaceMaterials.GetBSDF(m.subsurface, ev, ctx, lambda, nx)))
      && (m.DiffuseTransmission? ==> r == Success(DiffuseTransmissionMaterials.GetBSDF(m.diffuseTransmission, ev, ctx, lambda)))
      && (m.Measured? ==> r == Success(MeasuredMaterials.GetBSDF(m.measured, ev, ctx, lambda)))
  {
  }

  /** Dispatched BSDF construction: exactly one slot of the variant's BxDF
      type is allocated, and the BxDF stored there has that type. Only the
      dielectric and layered variants may change the wavelengths. */
  function GetBSDF(m: Material, ev: TextureEvaluator, ctx: MaterialEvalContext,
                   lambda: SampledWavelengths, scratch: ScratchBuffer,
                   nx: Externals, lb: CoatedMaterials.LayeredBuilders): (r: Result<ShadedBSDF, MaterialError>)
    requires GetBSDFDefined(m, ev, ctx, lambda, nx)
    ensures r.Failure? <==> m.Hair? && !HairMaterials.HasAbsorptionSource(m.hair)
    ensures r.Success? ==>
      && r.value.scratch.slots == scratch.slots + [BxDFSlot(BxDFTypeOf(m))]
      && KindOf(r.value.bsdf.bxdf) == BxDFTypeOf(m)
      && r.value.bsdf.ns == ctx.ns && r.value.bsdf.dpdus == ctx.dpdus
    ensures r.Success? && !(m.Dielectric? || m.ThinDielectric? || m.CoatedDiffuse? || m.CoatedConductor?) ==>
      r.value.lambda == lambda
    ensures var own := VariantBSDF(m, ev, ctx, lambda, nx, lb);
            && (r.Failure? ==> own.Failure? && r.error == own.error)
            && (r.Success? ==> own == Success(Evaluated(r.value.bsdf, r.value.lambda)))
  {
    var scratch' := scratch.Alloc(BxDFSlot(BxDFTypeOf(m)));
    match VariantBSDF(m, ev, ctx, lambda, nx, lb)
    case Failure(e) => Failure(e)
    case Success(ev') => Success(ShadedBSDF(ev'.bsdf, ev'.lambda, scratch'))
  }

  /** Dispatched BSSRDF construction. Variants whose BSSRDF type is `void`
      (the mix included) return none and allocate nothing; the subsurface
      variant allocates exactly one BSSRDF slot. */
  function GetBSSRDF(m: Material, ev: TextureEvaluator, ctx: MaterialEvalContext,
                     lambda: SampledWavelengths, scratch: ScratchBuffer, nx: Externals): (r: Result<ShadedBSSRDF, MaterialError>)
    ensures !m.Subsurface? ==> r == Success(ShadedBSSRDF(None, scratch))
    ensures m.Subsurface? ==>
      var own := SubsurfaceMaterials.GetBSSRDF(m.subsurface, ev, ctx, lambda, nx);
      && (r.Failure? <==> own.Failure?)
      && (r.Failure? ==> r.error == own.error)
      && (r.Success? ==> r.value.bssrdf == Some(own.value)
                         && r.value.scratch.slots == scratch.slots + [BSSRDFSlot])
  {
    if !HasBSSRDFType(m) then
      Success(ShadedBSSRDF(None, scratch))
    else
      var scratch' := scratch.Alloc(BSSRDFSlot);
      match SubsurfaceMaterials.GetBSSRDF(m.subsurface, ev, ctx, lambda, nx)
      case Failure(e) => Failure(e)
      case Success(b) => Success(ShadedBSSRDF(Some(b), scratch'))
  }

  /** A material produces a subsurface response exactly when it reports
      subsurface scattering, and a material that does not never allocates for
      one. */
  lemma {:induction false} SubsurfaceResponseIffReported(m: Material, ev: TextureEvaluator, ctx: MaterialEvalContext,
                                     lambda: SampledWavelengths, scratch: ScratchBuffer, nx: Externals)
    ensures var r := GetBSSRDF(m, ev, ctx, lambda, scratch, nx);
            r.Success? ==> (r.value.bssrdf.Some? <==> HasSubsurfaceScattering(m))
    ensures !HasSubsurfaceScattering(m) ==> GetBSSRDF(m, ev, ctx, lambda, scratch, nx).value.scratch == scratch
  {
  }

  /** One shading event (BSDF, then BSSRDF on the same buffer) uses exactly
      one BxDF slot plus one BSSRDF slot when, and only when, the material
      scatters below the surface. */
  lemma {:induction false} ShadingEventAllocations(m: Material, ev: TextureEvaluator, ctx: MaterialEvalContext,
                                 lambda: SampledWavelengths, scratch: ScratchBuffer,
                                 nx: Externals, lb: CoatedMaterials.LayeredBuilders)
    requires GetBSDFDefined(m, ev, ctx, lambda, nx)
    requires GetBSDF(m, ev, ctx, lambda, scratch, nx, lb).Success?
    ensures var s := GetBSDF(m, ev, ctx, lambda, scratch, nx, lb).value;
            var b := GetBSSRDF(m, ev, ctx, s.lambda, s.scratch, nx);
            b.Success? ==>
              |b.value.scratch.slots| == |scratch.slots| + (if HasSubsurfaceScattering(m) then 2 else 1)
  {
  }

  /** The BSDF depends on the evaluator only through the textures the variant
      declares (for every variant built inside this model). */
  lemma {:induction false} GetBSDFReadsOnlyDeclared(m: Material, e1: TextureEvaluator, e2: TextureEvaluator,
                                 ctx: MaterialEvalContext, lambda: SampledWavelengths, scratch: ScratchBuffer,
                                 nx: Externals, lb: CoatedMaterials.LayeredBuilders)
    requires !m.CoatedDiffuse? && !m.CoatedConductor?
    requires GetBSDFDefined(m, e1, ctx, lambda, nx) && GetBSDFDefined(m, e2, ctx, lambda, nx)
    requires AgreeOn(e1, e2, TextureUses(m), ctx.tex, lambda)
    ensures GetBSDF(m, e1, ctx, lambda, scratch, nx, lb) == GetBSDF(m, e2, ctx, lambda, scratch, nx, lb)
  {
    match m
    case Dielectric(d) => DielectricMaterials.GetBSDFReadsOnlyDeclared(d, e1, e2, ctx, lambda, nx);
    case ThinDielectric(_) =>
    case Hair(h) => HairMaterials.GetBSDFReadsOnlyDeclared(h, e1, e2, ctx, lambda, nx);
    case Diffuse(d) => DiffuseMaterials.GetBSDFReadsOnlyDeclared(d, e1, e2, ctx, lambda);
    case Conductor(c) => ConductorMaterials.GetBSDFReadsOnlyDeclared(c, e1, e2, ctx, lambda, nx);
    case Subsurface(s) =>
      assert Some(s.uRoughness) in SubsurfaceMaterials.TextureUses(s).floats;
      assert Some(s.vRoughness) in SubsurfaceMaterials.TextureUses(s).floats;
      SubsurfaceMaterials.GetBSDFReadsOnlyDeclared(s, e1, e2, ctx, lambda, nx);
    case DiffuseTransmission(d) => DiffuseTransmissionMaterials.GetBSDFReadsOnlyDeclared(d, e1, e2, ctx, lambda);
    case Measured(_) =>
  }

  /** The textures each variant may read: the declarations above, with the
      subsurface variant's corrected to include reflectance and mfp. */
  function CorrectedTextureUses(m: Material): (u: TextureUse) {
    match m
    case Subsurface(s) => SubsurfaceMaterials.CorrectedTextureUses(s)
    case _ => TextureUses(m)
  }

  /** With the subsurface declaration corrected, two evaluators that agree on
      the declared textures give the same dispatched subsurface response. */
  lemma {:induction false} GetBSSRDFReadsOnlyCorrectedDeclaration(m: Material, e1: TextureEvaluator, e2: TextureEvaluator,
                                   ctx: MaterialEvalContext, lambda: SampledWavelengths, scratch: ScratchBuffer,
                                   nx: Externals)
    requires AgreeOn(e1, e2, CorrectedTextureUses(m), ctx.tex, lambda)
    ensures GetBSSRDF(m, e1, ctx, lambda, scratch, nx) == GetBSSRDF(m, e2, ctx, lambda, scratch, nx)
  {
    if m.Subsurface? {
      SubsurfaceMaterials.GetBSSRDFReadsOnlyCorrectedDeclaration(m.subsurface, e1, e2, ctx, lambda, nx);
    }
  }

  /** With the declarations as the dispatch forwards them, the subsurface
      response can depend on a texture no variant declared: some material and
      two evaluators agree on everything declared, yet respond differently. */
  lemma DispatchedDeclarationMissesReads()
    ensures exists m: Material, e1: TextureEvaluator, e2: TextureEvaluator, ctx: MaterialEvalContext,
                   lambda: SampledWavelengths, scratch: ScratchBuffer, nx: Externals ::
      && AgreeOn(e1, e2, TextureUses(m), ctx.tex, lambda)
      && GetBSSRDF(m, e1, ctx, lambda, scratch, nx) != GetBSSRDF(m, e2, ctx, lambda, scratch, nx)
  {
    SubsurfaceMaterials.AsWrittenDeclarationMissesReads();
    var s: SubsurfaceMaterials.SubsurfaceMaterial, e1: TextureEvaluator, e2: TextureEvaluator,
        ctx: MaterialEvalContext, lambda: SampledWavelengths, nx: Externals :|
      && AgreeOn(e1, e2, SubsurfaceMaterials.TextureUses(s), ctx.tex, lambda)
      && SubsurfaceMaterials.GetBSSRDF(s, e1, ctx, lambda, nx) != SubsurfaceMaterials.GetBSSRDF(s, e2, ctx, lambda, nx);
    var m := Subsurface(s);
    var scratch := ScratchBuffer([]);
    assert TextureUses(m) == SubsurfaceMaterials.TextureUses(s);
    assert GetBSSRDF(m, e1, ctx, lambda, scratch, nx) != GetBSSRDF(m, e2, ctx, lambda, scratch, nx);
  }
}

=== FILE: measured.dfy ===
/** The measured material: tabulated reflectance data loaded from a file. It
    reads no textures; its BxDF binds the data to the current wavelengths. */
module MeasuredMaterials {
  import opened Wrappers
  import opened Handles
  import opened Spectra
  import opened Textures
  import opened Scattering

  datatype MeasuredMaterial = MeasuredMaterial(
    brdf: MeasuredBrdf, displacement: Option<FloatTexture>, normalMap: Option<ImageHandle>)

  function TextureUses(m: MeasuredMaterial): (u: TextureUse) {
    NoTextures
  }

  /** Every evaluation strategy can be used. */
  function CanEvaluateTextures(m: MeasuredMaterial, ev: TextureEvaluator): (r: bool)
    ensures r
    ensures r == Declares(ev, TextureUses(m))
  {
    true
  }

  /** The BxDF binds the material's data to the unchanged wavelengths; the
      evaluator is not consulted at all. */
  function GetBSDF(m: MeasuredMaterial, ev: TextureEvaluator, ctx: MaterialEvalContext,
                   lambda: SampledWavelengths): (r: Evaluated)
    ensures r.lambda == lambda
    ensures r.bsdf.ns == ctx.ns && r.bsdf.dpdus == ctx.dpdus
    ensures r.bsdf.bxdf == MeasuredBxDF(m.brdf, lambda)
  {
    Evaluated(BSDF(ctx.ns, ctx.dpdus, MeasuredBxDF(m.brdf, lambda)), lambda)
  }
}

=== FILE: mix.dfy ===
/** The mix material: two sub-materials and a blend amount. It never builds a
    BSDF itself; the renderer first resolves it to one of its sub-materials
    with `ChooseMaterial`. */
module MixMaterials {
  import opened Wrappers
  import opened Handles
  import opened Geometry
  import opened Textures
  import opened Numerics

  datatype MixMaterial = MixMaterial(amount: FloatTexture, material0: MaterialHandle, material1: MaterialHandle)

  function GetMaterial(m: MixMaterial, i: nat): (r: MaterialHandle)
    requires i < 2
    ensures i == 0 ==> r == m.material0
    ensures i == 1 ==> r == m.material1
  {
    if i == 0 then m.material0 else m.material1
  }

  /** Only the amount is read, immediately. */
  function TextureUses(m: MixMaterial): (u: TextureUse) {
    TextureUse([Some(m.amount)], [])
  }

  function CanEvaluateTextures(m: MixMaterial, ev: TextureEvaluator): (r: bool)
    ensures r == Declares(ev, TextureUses(m))
    ensures r <==> ev.canEvaluateFloat(m.amount)
  {
    assert FloatIds(TextureUses(m)) == {m.amount};
    Declares(ev, TextureUses(m))
  }

  /** Picks one of the two sub-materials. Amounts at or below 0 and at or above
      1 pick an end point without consulting the hash; in between, the
      deterministic hash of the shading point, the outgoing direction and the
      two material identities decides. */
  function ChooseMaterial(m: MixMaterial, ev: TextureEvaluator, ctx: MaterialEvalContext, nx: Externals): (r: MaterialHandle)
    ensures r == m.material0 || r == m.material1
    ensures ev.evalFloat(m.amount, ctx.tex) <= 0.0 ==> r == m.material0
    ensures ev.evalFloat(m.amount, ctx.tex) >= 1.0 ==> r == m.material1
  {
    var amt := ev.evalFloat(m.amount, ctx.tex);
    if amt <= 0.0 then m.material0
    else if amt >= 1.0 then m.material1
    else
      var u := nx.hashFloat(ctx.tex.p, ctx.wo, m.material0, m.material1);
      if amt < u then m.material0 else m.material1
  }

  /** With a hash in [0, 1), the choice is the threshold rule "material 0 when
      amount < u, else material 1" for every amount, except at amount 0 with a
      hash of exactly 0, where the end-point rule keeps material 0. */
  lemma ChooseMaterialIsThresholdRule(m: MixMaterial, ev: TextureEvaluator, ctx: MaterialEvalContext, nx: Externals)
    requires HashInUnitInterval(nx.hashFloat)
    ensures var amt := ev.evalFloat(m.amount, ctx.tex);
            var u := nx.hashFloat(ctx.tex.p, ctx.wo, m.material0, m.material1);
            !(amt == 0.0 && u == 0.0) ==>
              ChooseMaterial(m, ev, ctx, nx) == (if amt < u then m.material0 else m.material1)
  {
    var u := nx.hashFloat(ctx.tex.p, ctx.wo, m.material0, m.material1);
    assert 0.0 <= u < 1.0;
  }

  /** The choice is a pure function of the amount value, the shading point,
      the outgoing direction and the two material identities: nothing else in
      the context or the evaluator matters. */
  lemma ChooseMaterialIsDeterministic(m: MixMaterial, e1: TextureEvaluator, e2: TextureEvaluator,
                                      c1: MaterialEvalContext, c2: MaterialEvalContext, nx: Externals)
    requires e1.evalFloat(m.amount, c1.tex) == e2.evalFloat(m.amount, c2.tex)
    requires c1.tex.p == c2.tex.p && c1.wo == c2.wo
    ensures ChooseMaterial(m, e1, c1, nx) == ChooseMaterial(m, e2, c2, nx)
  {
  }

  /** Amounts outside the open interval (0, 1) never consult the hash: any two
      hash functions give the same choice. */
  lemma EndPointsIgnoreHash(m: MixMaterial, ev: TextureEvaluator, ctx: MaterialEvalContext,
                            nx1: Externals, nx2: Externals)
    requires ev.evalFloat(m.amount, ctx.tex) <= 0.0 || ev.evalFloat(m.amount, ctx.tex) >= 1.0
    ensures ChooseMaterial(m, ev, ctx, nx1) == ChooseMaterial(m, ev, ctx, nx2)
  {
  }
}

=== FILE: numerics.dfy ===
/** Numerical routines the materials call but whose definitions lie outside
    this model. They are parameters of the model: each is a field of
    `Externals`, and the few facts the model relies on are stated as
    predicates that lemmas take as hypotheses. */
module Numerics {
  import opened Handles
  import opened Geometry
  import opened Spectra
  import opened Scattering

  datatype Externals = Externals(
    /** Perceptual roughness to microfacet alpha (the remap). */
    roughnessToAlpha: real -> real,
    /** Square root, applied componentwise to sampled spectra. */
    sqrt: real -> real,
    /** Deterministic hash of a shading point, a direction and two materials. */
    hashFloat: (Vector3, Vector3, MaterialHandle, MaterialHandle) -> real,
    /** Hair absorption from a reflectance colour and the azimuthal roughness. */
    sigmaAFromReflectance: (SampledSpectrum, real, SampledWavelengths) -> SampledSpectrum,
    /** Hair absorption from eumelanin and pheomelanin concentrations, sampled
        at the given wavelengths. */
    sigmaAFromConcentration: (real, real, SampledWavelengths) -> SampledSpectrum,
    /** Inversion of the subsurface table: (sigma_a, sigma_s) from a diffuse
        reflectance and a mean free path. */
    subsurfaceFromDiffuse: (BSSRDFTable, SampledSpectrum, SampledSpectrum) -> (SampledSpectrum, SampledSpectrum),
    /** Beam-diffusion precomputation of a table of the given dimensions from
        the anisotropy g and the relative index of refraction. */
    beamDiffusion: (real, real, nat, nat) -> seq<real>)

  /** The hash lands in [0, 1) for every argument. */
  ghost predicate HashInUnitInterval(hash: (Vector3, Vector3, MaterialHandle, MaterialHandle) -> real) {
    forall p, wo, m0, m1 :: 0.0 <= hash(p, wo, m0, m1) < 1.0
  }

  /** The facts about the square root the model relies on: it is zero at zero
      and strictly increasing on the non-negative reals. */
  ghost predicate IsSquareRoot(sqrt: real -> real) {
    && sqrt(0.0) == 0.0
    && forall x, y :: 0.0 <= x < y ==> sqrt(x) < sqrt(y)
  }
}

=== FILE: roughness.dfy ===
/** Microfacet roughness shared by the dielectric, conductor and subsurface
    materials: the two roughness textures are read and, when the material asks
    for it, remapped from perceptual roughness to microfacet alpha. */
module Roughness {
  import opened Handles
  import opened Textures
  import opened Scattering
  import opened Numerics

  function ResolveRoughness(ev: TextureEvaluator, ctx: TextureEvalContext,
                            uRoughness: FloatTexture, vRoughness: FloatTexture,
                            remapRoughness: bool, nx: Externals): (d: TrowbridgeReitz)
    ensures !remapRoughness ==> d.alphaX == ev.evalFloat(uRoughness, ctx) && d.alphaY == ev.evalFloat(vRoughness, ctx)
    ensures remapRoughness ==> (d.alphaX == nx.roughnessToAlpha(ev.evalFloat(uRoughness, ctx))
                             && d.alphaY == nx.roughnessToAlpha(ev.evalFloat(vRoughness, ctx)))
  {
    var urough := ev.evalFloat(uRoughness, ctx);
    var vrough := ev.evalFloat(vRoughness, ctx);
    if remapRoughness then TrowbridgeReitz(nx.roughnessToAlpha(urough), nx.roughnessToAlpha(vrough))
    else TrowbridgeReitz(urough, vrough)
  }
}

=== FILE: scattering.dfy ===
/** The values a material builds: the closed set of BxDFs, the BSDF that wraps
    one in the shading frame, the tabulated BSSRDF, and the configuration
    errors that abort shading. The scattering mathematics of each BxDF is not
    modelled: a BxDF here is the record of the arguments it was built from. */
module Scattering {
  import opened Handles
  import opened Geometry
  import opened Spectra

  /** Microfacet distribution, as the pair of roughness values it is built from. */
  datatype TrowbridgeReitz = TrowbridgeReitz(alphaX: real, alphaY: real)

  /** The precomputed diffusion-profile table of a subsurface material. */
  datatype BSSRDFTable = BSSRDFTable(nRhoSamples: nat, nRadiusSamples: nat, contents: seq<real>)

  /** The BxDF variants materials construct. The two layered BxDFs are built by
      code outside this model and carry only what that code returned. */
  datatype BxDF =
    | DielectricBxDF(eta: real, distrib: TrowbridgeReitz)
    | ThinDielectricBxDF(eta: real)
    | HairBxDF(h: real, eta: real, sigmaA: SampledSpectrum, betaM: real, betaN: real, alpha: real)
    | RoughDiffuseBxDF(r: SampledSpectrum, t: SampledSpectrum, sigma: real)
    | ConductorBxDF(distrib: TrowbridgeReitz, etas: SampledSpectrum, ks: SampledSpectrum)
    | CoatedDiffuseBxDF(detail: seq<real>)
    | CoatedConductorBxDF(detail: seq<real>)
    | MeasuredBxDF(brdf: MeasuredBrdf, lambda: SampledWavelengths)

  /** The storage type a material's `BxDF` alias names. The mix material's
      alias is `int`: it never builds a BxDF. */
  datatype BxDFKind =
    | DielectricKind | ThinDielectricKind | HairKind | RoughDiffuseKind
    | ConductorKind | CoatedDiffuseKind | CoatedConductorKind | MeasuredKind
    | IntPlaceholderKind

  /** The storage type a BxDF value occupies. */
  function KindOf(b: BxDF): (k: BxDFKind) {
    match b
    case DielectricBxDF(_, _) => DielectricKind
    case ThinDielectricBxDF(_) => ThinDielectricKind
    case HairBxDF(_, _, _, _, _, _) => HairKind
    case RoughDiffuseBxDF(_, _, _) => RoughDiffuseKind
    case ConductorBxDF(_, _, _) => ConductorKind
    case CoatedDiffuseBxDF(_) => CoatedDiffuseKind
    case CoatedConductorBxDF(_) => CoatedConductorKind
    case MeasuredBxDF(_, _) => MeasuredKind
  }

  /** A BxDF placed in the shading frame given by the shading normal and the
      shading tangent. */
  datatype BSDF = BSDF(ns: Vector3, dpdus: Vector3, bxdf: BxDF)

  /** The subsurface response of the subsurface material; it refers to the
      material's table rather than copying it. */
  datatype TabulatedBSSRDF = TabulatedBSSRDF(
    p: Vector3, ns: Vector3, wo: Vector3, eta: real,
    sigmaA: SampledSpectrum, sigmaS: SampledSpectrum, table: BSSRDFTable)

  /** Result of building a BSDF: the BSDF and the wavelengths after the call
      (dispersive dielectrics terminate the secondary wavelengths). */
  datatype Evaluated = Evaluated(bsdf: BSDF, lambda: SampledWavelengths)

  /** Configuration errors, fatal in the renderer. */
  datatype MaterialError =
    | NoHairAbsorptionSource      // hair material with no sigma_a, color or melanin
    | MissingSubsurfaceInputs     // subsurface material with neither sigma pair nor reflectance and mfp
}

=== FILE: spectra.dfy ===
/** Spectral quantities: values sampled at the current wavelengths, the set of
    sampled wavelengths with its "secondary terminated" state, and the
    non-textured spectra a material may hold (such as an index of refraction). */
module Spectra {

  /** Number of wavelengths carried by every spectral sample. */
  const NSpectrumSamples: nat := 4

  /** A spectrum sampled at the current wavelengths: one value per sample. */
  type SampledSpectrum = s: seq<real> | |s| == NSpectrumSamples witness [0.0, 0.0, 0.0, 0.0]

  /** The wavelengths of one camera sample. Terminating the secondary
      wavelengths keeps only the first ("hero") wavelength active. */
  datatype SampledWavelengths = SampledWavelengths(lambda: SampledSpectrum, secondaryTerminated: bool)
  {
    /** After the call only the hero wavelength is active; the wavelengths
        themselves are untouched, and a second call changes nothing. */
    function TerminateSecondary(): (r: SampledWavelengths)
      ensures r.secondaryTerminated
      ensures r.lambda == lambda
      ensures secondaryTerminated ==> r == this
    {
      if secondaryTerminated then this else SampledWavelengths(lambda, true)
    }
  }

  /** A spectrum that is not a texture. `Is<ConstantSpectrum>` is a test on
      the spectrum's kind, so a varying spectrum whose values happen to be
      equal everywhere is still not constant. */
  datatype Spectrum = ConstantSpectrum(c: real) | VaryingSpectrum(values: real -> real)
  {
    function Sample(wavelength: real): (v: real) {
      match this
      case ConstantSpectrum(c) => c
      case VaryingSpectrum(values) => values(wavelength)
    }
  }

  /** The same value at every wavelength. */
  function Uniform(c: real): (r: SampledSpectrum)
    ensures forall i :: 0 <= i < NSpectrumSamples ==> r[i] == c
  {
    seq(NSpectrumSamples, _ => c)
  }

  function ScaleSpectrum(k: real, s: SampledSpectrum): (r: SampledSpectrum)
    ensures forall i :: 0 <= i < NSpectrumSamples ==> r[i] == k * s[i]
  {
    seq(NSpectrumSamples, i requires 0 <= i < NSpectrumSamples => k * s[i])
  }

  function Max(a: real, b: real): (r: real)
    ensures r >= a && r >= b
    ensures r == a || r == b
  {
    if a >= b then a else b
  }

  /** Scalar clamp to [lo, hi]. */
  function ClampReal(x: real, lo: real, hi: real): (r: real)
    requires lo <= hi
    ensures lo <= r <= hi
    ensures lo <= x <= hi ==> r == x
    ensures x < lo ==> r == lo
    ensures x > hi ==> r == hi
  {
    if x < lo then lo else if x > hi then hi else x
  }

  /** Componentwise clamp to [lo, hi]: in-range components are kept, the
      others move to the nearest bound. */
  function Clamp(s: SampledSpectrum, lo: real, hi: real): (r: SampledSpectrum)
    requires lo <= hi
    ensures forall i :: 0 <= i < NSpectrumSamples ==> lo <= r[i] <= hi
    ensures forall i :: 0 <= i < NSpectrumSamples && lo <= s[i] <= hi ==> r[i] == s[i]
    ensures forall i :: 0 <= i < NSpectrumSamples && s[i] < lo ==> r[i] == lo
    ensures forall i :: 0 <= i < NSpectrumSamples && s[i] > hi ==> r[i] == hi
  {
    seq(NSpectrumSamples, i requires 0 <= i < NSpectrumSamples => ClampReal(s[i], lo, hi))
  }

  /** Componentwise floor at zero. */
  function ClampZero(s: SampledSpectrum): (r: SampledSpectrum)
    ensures forall i :: 0 <= i < NSpectrumSamples ==> r[i] >= 0.0
    ensures forall i :: 0 <= i < NSpectrumSamples && s[i] >= 0.0 ==> r[i] == s[i]
    ensures forall i :: 0 <= i < NSpectrumSamples && s[i] < 0.0 ==> r[i] == 0.0
  {
    seq(NSpectrumSamples, i requires 0 <= i < NSpectrumSamples => Max(0.0, s[i]))
  }

  predicate InUnitRange(s: SampledSpectrum) {
    forall i :: 0 <= i < NSpectrumSamples ==> 0.0 <= s[i] <= 1.0
  }

  predicate NonNegative(s: SampledSpectrum) {
    forall i :: 0 <= i < NSpectrumSamples ==> s[i] >= 0.0
  }

  /** Clamping is a projection: clamping an already clamped spectrum, or one
      already inside the range, changes nothing. */
  lemma {:induction false} ClampIdempotent(s: SampledSpectrum, lo: real, hi: real)
    requires lo <= hi
    ensures Clamp(Clamp(s, lo, hi), lo, hi) == Clamp(s, lo, hi)
    ensures (forall i :: 0 <= i < NSpectrumSamples ==> lo <= s[i] <= hi) ==> Clamp(s, lo, hi) == s
  {
    var c := Clamp(s, lo, hi);
    var cc := Clamp(c, lo, hi);
    assert forall i :: 0 <= i < NSpectrumSamples ==> cc[i] == c[i];
    if forall i :: 0 <= i < NSpectrumSamples ==> lo <= s[i] <= hi {
      assert forall i :: 0 <= i < NSpectrumSamples ==> c[i] == s[i];
    }
  }
}

=== FILE: subsurface.dfy ===
/** The subsurface material: a dielectric boundary over a scattering medium.
    At construction a diffusion-profile table is precomputed from the
    anisotropy g and the index of refraction; every later evaluation only reads
    it. Per shading point, the medium's absorption and scattering coefficients
    come either from two textures directly or from a diffuse reflectance and a
    mean free path inverted through the table. */
module SubsurfaceMaterials {
  import opened Wrappers
  import opened Handles
  import opened Geometry
  import opened Spectra
  import opened Textures
  import opened Scattering
  import opened Numerics
  import opened Roughness

  /** Dimensions of the precomputed table. */
  const TableRhoSamples: nat := 100
  const TableRadiusSamples: nat := 64

  datatype SubsurfaceMaterial = SubsurfaceMaterial(
    scale: real,
    sigmaA: Option<SpectrumTexture>, sigmaS: Option<SpectrumTexture>,
    reflectance: Option<SpectrumTexture>, mfp: Option<SpectrumTexture>,
    eta: real, uRoughness: FloatTexture, vRoughness: FloatTexture,
    displacement: Option<FloatTexture>, normalMap: Option<ImageHandle>,
    remapRoughness: bool, table: BSSRDFTable)

  /** Construction: the table is computed here, once, from g and eta. */
  function NewSubsurfaceMaterial(
    scale: real, sigmaA: Option<SpectrumTexture>, sigmaS: Option<SpectrumTexture>,
    reflectance: Option<SpectrumTexture>, mfp: Option<SpectrumTexture>, g: real, eta: real,
    uRoughness: FloatTexture, vRoughness: FloatTexture,
    displacement: Option<FloatTexture>, normalMap: Option<ImageHandle>,
    remapRoughness: bool, nx: Externals): (m: SubsurfaceMaterial)
    ensures m.table.nRhoSamples == TableRhoSamples && m.table.nRadiusSamples == TableRadiusSamples
    ensures m.table.contents == nx.beamDiffusion(g, eta, TableRhoSamples, TableRadiusSamples)
    ensures m.scale == scale && m.eta == eta && m.remapRoughness == remapRoughness
    ensures m.sigmaA == sigmaA && m.sigmaS == sigmaS && m.reflectance == reflectance && m.mfp == mfp
    ensures m.uRoughness == uRoughness && m.vRoughness == vRoughness
    ensures m.displacement == displacement && m.normalMap == normalMap
  {
    var table := BSSRDFTable(TableRhoSamples, TableRadiusSamples,
                             nx.beamDiffusion(g, eta, TableRhoSamples, TableRadiusSamples));
    SubsurfaceMaterial(scale, sigmaA, sigmaS, reflectance, mfp, eta, uRoughness, vRoughness,
                       displacement, normalMap, remapRoughness, table)
  }

  /** The table is a function of (g, eta) alone: two materials built from the
      same g and eta have identical tables, whatever their other parameters. */
  lemma TableDependsOnlyOnGAndEta(
    g: real, eta: real, nx: Externals,
    s1: real, a1: Option<SpectrumTexture>, b1: Option<SpectrumTexture>, c1: Option<SpectrumTexture>, d1: Option<SpectrumTexture>,
    u1: FloatTexture, v1: FloatTexture, disp1: Option<FloatTexture>, nm1: Option<ImageHandle>, rr1: bool,
    s2: real, a2: Option<SpectrumTexture>, b2: Option<SpectrumTexture>, c2: Option<SpectrumTexture>, d2: Option<SpectrumTexture>,
    u2: FloatTexture, v2: FloatTexture, disp2: Option<FloatTexture>, nm2: Option<ImageHandle>, rr2: bool)
    ensures NewSubsurfaceMaterial(s1, a1, b1, c1, d1, g, eta, u1, v1, disp1, nm1, rr1, nx).table
         == NewSubsurfaceMaterial(s2, a2, b2, c2, d2, g, eta, u2, v2, disp2, nm2, rr2, nx).table
  {
  }

  /** The declaration as the source writes it: roughness read immediately,
      sigma_a and sigma_s deferred. It omits reflectance and mfp, which
      `GetBSSRDF` reads when either coefficient texture is absent. */
  function TextureUses(m: SubsurfaceMaterial): (u: TextureUse) {
    TextureUse([Some(m.uRoughness), Some(m.vRoughness)], [m.sigmaA, m.sigmaS])
  }

  function CanEvaluateTextures(m: SubsurfaceMaterial, ev: TextureEvaluator): (r: bool)
    ensures r == Declares(ev, TextureUses(m))
    ensures r <==> (&& ev.canEvaluateFloat(m.uRoughness) && ev.canEvaluateFloat(m.vRoughness)
                    && (m.sigmaA.Some? ==> ev.canEvaluateSpectrum(m.sigmaA.value))
                    && (m.sigmaS.Some? ==> ev.canEvaluateSpectrum(m.sigmaS.value)))
  {
    var u := TextureUses(m);
    assert FloatIds(u) == {m.uRoughness, m.vRoughness};
    assert forall t :: t in SpectrumIds(u) <==> (m.sigmaA == Some(t) || m.sigmaS == Some(t));
    Declares(ev, u)
  }

  /** The corrected declaration: every texture `GetBSSRDF` may read, including
      reflectance and mfp, is declared as deferrable. */
  function CorrectedTextureUses(m: SubsurfaceMaterial): (u: TextureUse) {
    TextureUse([Some(m.uRoughness), Some(m.vRoughness)], [m.sigmaA, m.sigmaS, m.reflectance, m.mfp])
  }

  /** The corrected query is stricter: it also demands reflectance and mfp, so
      every evaluator it accepts is accepted by the declaration as written. */
  function CanEvaluateTexturesCorrected(m: SubsurfaceMaterial, ev: TextureEvaluator): (r: bool)
    ensures r == Declares(ev, CorrectedTextureUses(m))
    ensures r <==> (&& CanEvaluateTextures(m, ev)
                    && (m.reflectance.Some? ==> ev.canEvaluateSpectrum(m.reflectance.value))
                    && (m.mfp.Some? ==> ev.canEvaluateSpectrum(m.mfp.value)))
  {
    var u := CorrectedTextureUses(m);
    assert FloatIds(u) == {m.uRoughness, m.vRoughness};
    assert forall t :: t in SpectrumIds(u) <==>
      (m.sigmaA == Some(t) || m.sigmaS == Some(t) || m.reflectance == Some(t) || m.mfp == Some(t));
    Declares(ev, u)
  }

  /** The surface BSDF: a dielectric boundary with the material's fixed index
      of refraction (no zero guard here) and its roughness. */
  function GetBSDF(m: SubsurfaceMaterial, ev: TextureEvaluator, ctx: MaterialEvalContext,
                   lambda: SampledWavelengths, nx: Externals): (r: Evaluated)
    ensures r.lambda == lambda
    ensures r.bsdf.ns == ctx.ns && r.bsdf.dpdus == ctx.dpdus
    ensures r.bsdf.bxdf.DielectricBxDF? && r.bsdf.bxdf.eta == m.eta
    ensures r.bsdf.bxdf.distrib == ResolveRoughness(ev, ctx.tex, m.uRoughness, m.vRoughness, m.remapRoughness, nx)
  {
    var distrib := ResolveRoughness(ev, ctx.tex, m.uRoughness, m.vRoughness, m.remapRoughness, nx);
    Evaluated(BSDF(ctx.ns, ctx.dpdus, DielectricBxDF(m.eta, distrib)), lambda)
  }

  /** The coefficients are given directly by two textures. */
  predicate HasCoefficients(m: SubsurfaceMaterial) {
    m.sigmaA.Some? && m.sigmaS.Some?
  }

  /** The coefficients are to be inverted from reflectance and mean free path. */
  predicate HasDiffuseInputs(m: SubsurfaceMaterial) {
    m.reflectance.Some? && m.mfp.Some?
  }

  /** Target reflectance for the inversion, clamped to [0, 1]. */
  function DiffuseReflectance(m: SubsurfaceMaterial, ev: TextureEvaluator, ctx: TextureEvalContext,
                              lambda: SampledWavelengths): (r: SampledSpectrum)
    requires HasDiffuseInputs(m)
    ensures InUnitRange(r)
    ensures var refl := ev.evalSpectrum(m.reflectance.value, ctx, lambda);
            forall i :: 0 <= i < NSpectrumSamples ==>
              && (0.0 <= refl[i] <= 1.0 ==> r[i] == refl[i])
              && (refl[i] < 0.0 ==> r[i] == 0.0)
              && (refl[i] > 1.0 ==> r[i] == 1.0)
  {
    Clamp(ev.evalSpectrum(m.reflectance.value, ctx, lambda), 0.0, 1.0)
  }

  /** Scaled mean free path for the inversion, floored at 0. */
  function MeanFreePath(m: SubsurfaceMaterial, ev: TextureEvaluator, ctx: TextureEvalContext,
                        lambda: SampledWavelengths): (r: SampledSpectrum)
    requires HasDiffuseInputs(m)
    ensures NonNegative(r)
    ensures var mfree := ev.evalSpectrum(m.mfp.value, ctx, lambda);
            forall i :: 0 <= i < NSpectrumSamples ==>
              && (m.scale * mfree[i] >= 0.0 ==> r[i] == m.scale * mfree[i])
              && (m.scale * mfree[i] < 0.0 ==> r[i] == 0.0)
  {
    ClampZero(ScaleSpectrum(m.scale, ev.evalSpectrum(m.mfp.value, ctx, lambda)))
  }

  /** The subsurface response at a shading point. Direct coefficients win when
      both are present; otherwise reflectance and mean free path must both be
      present, and their absence is a configuration error. */
  function GetBSSRDF(m: SubsurfaceMaterial, ev: TextureEvaluator, ctx: MaterialEvalContext,
                     lambda: SampledWavelengths, nx: Externals): (r: Result<TabulatedBSSRDF, MaterialError>)
    ensures r.Failure? <==> !HasCoefficients(m) && !HasDiffuseInputs(m)
    ensures r.Failure? ==> r.error == MissingSubsurfaceInputs
    ensures r.Success? ==>
      && r.value.table == m.table
      && r.value.eta == m.eta
      && r.value.p == ctx.tex.p && r.value.ns == ctx.ns && r.value.wo == ctx.wo
    ensures r.Success? && HasCoefficients(m) ==>
      && NonNegative(r.value.sigmaA) && NonNegative(r.value.sigmaS)
      && r.value.sigmaA == ClampZero(ScaleSpectrum(m.scale, ev.evalSpectrum(m.sigmaA.value, ctx.tex, lambda)))
      && r.value.sigmaS == ClampZero(ScaleSpectrum(m.scale, ev.evalSpectrum(m.sigmaS.value, ctx.tex, lambda)))
    ensures r.Success? && !HasCoefficients(m) ==>
      (r.value.sigmaA, r.value.sigmaS) ==
        nx.subsurfaceFromDiffuse(m.table, DiffuseReflectance(m, ev, ctx.tex, lambda), MeanFreePath(m, ev, ctx.tex, lambda))
  {
    if HasCoefficients(m) then
      var sigA := ClampZero(ScaleSpectrum(m.scale, ev.evalSpectrum(m.sigmaA.value, ctx.tex, lambda)));
      var sigS := ClampZero(ScaleSpectrum(m.scale, ev.evalSpectrum(m.sigmaS.value, ctx.tex, lambda)));
      Success(TabulatedBSSRDF(ctx.tex.p, ctx.ns, ctx.wo, m.eta, sigA, sigS, m.table))
    else if !HasDiffuseInputs(m) then
      Failure(MissingSubsurfaceInputs)
    else
      var (sigA, sigS) := nx.subsurfaceFromDiffuse(m.table, DiffuseReflectance(m, ev, ctx.tex, lambda),
                                                  MeanFreePath(m, ev, ctx.tex, lambda));
      Success(TabulatedBSSRDF(ctx.tex.p, ctx.ns, ctx.wo, m.eta, sigA, sigS, m.table))
  }

  /** The surface BSDF depends on the evaluator only through the roughness
      textures, which the declaration as written names. */
  lemma GetBSDFReadsOnlyDeclared(m: SubsurfaceMaterial, e1: TextureEvaluator, e2: TextureEvaluator,
                                 ctx: MaterialEvalContext, lambda: SampledWavelengths, nx: Externals)
    requires AgreeOn(e1, e2, TextureUses(m), ctx.tex, lambda)
    ensures GetBSDF(m, e1, ctx, lambda, nx) == GetBSDF(m, e2, ctx, lambda, nx)
  {
    assert Some(m.uRoughness) in TextureUses(m).floats;
    assert Some(m.vRoughness) in TextureUses(m).floats;
  }

  /** With the corrected declaration, the subsurface response depends on the
      evaluator only through declared textures. */
  lemma GetBSSRDFReadsOnlyCorrectedDeclaration(m: SubsurfaceMaterial, e1: TextureEvaluator, e2: TextureEvaluator,
                                   ctx: MaterialEvalContext, lambda: SampledWavelengths, nx: Externals)
    requires AgreeOn(e1, e2, CorrectedTextureUses(m), ctx.tex, lambda)
    ensures GetBSSRDF(m, e1, ctx, lambda, nx) == GetBSSRDF(m, e2, ctx, lambda, nx)
  {
    var u := CorrectedTextureUses(m);
    assert m.sigmaA.Some? ==> m.sigmaA in u.spectra;
    assert m.sigmaS.Some? ==> m.sigmaS in u.spectra;
    assert m.reflectance.Some? ==> m.reflectance in u.spectra;
    assert m.mfp.Some? ==> m.mfp in u.spectra;
  }

  /** As written, the declaration misses textures the subsurface response
      reads: there is a material and two evaluators that agree on every texture
      the source declares, yet give different responses. An evaluator that
      can evaluate the declared textures but not the reflectance would thus be
      accepted and then asked for the reflectance. */
  lemma AsWrittenDeclarationMissesReads()
    ensures exists m: SubsurfaceMaterial, e1: TextureEvaluator, e2: TextureEvaluator,
                   ctx: MaterialEvalContext, lambda: SampledWavelengths, nx: Externals ::
      && AgreeOn(e1, e2, TextureUses(m), ctx.tex, lambda)
      && GetBSSRDF(m, e1, ctx, lambda, nx) != GetBSSRDF(m, e2, ctx, lambda, nx)
  {
    var reflectanceTex: SpectrumTexture := 7;
    var m := SubsurfaceMaterial(1.0, None, None, Some(reflectanceTex), Some(8), 1.33, 0, 1,
                                None, None, false, BSSRDFTable(TableRhoSamples, TableRadiusSamples, []));
    var dark := Uniform(0.0);
    var grey := Uniform(0.5);
    var e1 := TextureEvaluator((t, c) => 0.0, (t, c, l) => dark, t => true, t => true);
    var e2 := TextureEvaluator((t, c) => 0.0, (t, c, l) => if t == reflectanceTex then grey else dark, t => true, t => true);
    var zero := Vector3(0.0, 0.0, 0.0);
    var ctx := MaterialEvalContext(TextureEvalContext(zero, zero, zero, Point2(0.0, 0.0), 0.0, 0.0, 0.0, 0.0, 0),
                                   zero, zero, zero, zero);
    var lambda := SampledWavelengths(Uniform(500.0), false);
    var nx := Externals(x => x, x => x, (p, w, a, b) => 0.0, (s, b, l) => s, (a, b, l) => dark,
                        (table, r, mf) => (r, mf), (g, e, n1, n2) => []);
    assert TextureUses(m).spectra == [None, None];
    assert SpectrumIds(TextureUses(m)) == {};
    assert AgreeOn(e1, e2, TextureUses(m), ctx.tex, lambda);
    assert DiffuseReflectance(m, e1, ctx.tex, lambda)[0] == 0.0;
    assert DiffuseReflectance(m, e2, ctx.tex, lambda)[0] == 0.5;
    assert GetBSSRDF(m, e1, ctx, lambda, nx).value.sigmaA[0] == 0.0;
    assert GetBSSRDF(m, e2, ctx, lambda, nx).value.sigmaA[0] == 0.5;
  }
}

=== FILE: textures.dfy ===
/** Evaluation contexts and the texture-evaluation strategy that every material
    reads its parameters through. The strategy decides how a texture value is
    obtained and which textures it can evaluate at all; materials must declare
    the textures they touch through `CanEvaluate` before reading them. */
module Textures {
  import opened Wrappers
  import opened Handles
  import opened Geometry
  import opened Spectra

  /** The part of a shading point that texture lookups see. */
  datatype TextureEvalContext = TextureEvalContext(
    p: Vector3, dpdx: Vector3, dpdy: Vector3,
    uv: Point2, dudx: real, dudy: real, dvdx: real, dvdy: real,
    faceIndex: int)

  /** A texture context extended with the outgoing direction, the geometric and
      shading normals and the shading tangent used to build the BSDF frame. */
  datatype MaterialEvalContext = MaterialEvalContext(
    tex: TextureEvalContext, wo: Vector3, n: Vector3, ns: Vector3, dpdus: Vector3)

  /** A texture-evaluation strategy. `evalFloat`/`evalSpectrum` give texture
      values; `canEvaluateFloat`/`canEvaluateSpectrum` say per handle whether
      this strategy can evaluate the texture. An evaluator that can evaluate
      everything has both capability predicates constantly true. */
  datatype TextureEvaluator = TextureEvaluator(
    evalFloat: (FloatTexture, TextureEvalContext) -> real,
    evalSpectrum: (SpectrumTexture, TextureEvalContext, SampledWavelengths) -> SampledSpectrum,
    canEvaluateFloat: FloatTexture -> bool,
    canEvaluateSpectrum: SpectrumTexture -> bool)
  {
    /** The capability query: every present handle among the float textures
        (which must be evaluable immediately) and the spectrum textures (whose
        evaluation may be deferred) is evaluable; absent handles are ignored. */
    predicate CanEvaluate(floats: seq<Option<FloatTexture>>, spectra: seq<Option<SpectrumTexture>>) {
      && (forall i :: 0 <= i < |floats| && floats[i].Some? ==> canEvaluateFloat(floats[i].value))
      && (forall i :: 0 <= i < |spectra| && spectra[i].Some? ==> canEvaluateSpectrum(spectra[i].value))
    }
  }

  /** The textures one material declares: float textures needed immediately
      and spectrum textures that may be deferred. */
  datatype TextureUse = TextureUse(floats: seq<Option<FloatTexture>>, spectra: seq<Option<SpectrumTexture>>)

  const NoTextures := TextureUse([], [])

  /** The present float handles of a declaration. */
  function FloatIds(u: TextureUse): (r: set<FloatTexture>)
    ensures forall t :: t in r <==> Some(t) in u.floats
  {
    set i | 0 <= i < |u.floats| && u.floats[i].Some? :: u.floats[i].value
  }

  /** The present spectrum handles of a declaration. */
  function SpectrumIds(u: TextureUse): (r: set<SpectrumTexture>)
    ensures forall t :: t in r <==> Some(t) in u.spectra
  {
    set i | 0 <= i < |u.spectra| && u.spectra[i].Some? :: u.spectra[i].value
  }

  /** Every float handle of the declaration is evaluable immediately. */
  predicate FloatsEvaluable(ev: TextureEvaluator, u: TextureUse) {
    forall t :: t in FloatIds(u) ==> ev.canEvaluateFloat(t)
  }

  /** Every spectrum handle of the declaration is evaluable. */
  predicate SpectraEvaluable(ev: TextureEvaluator, u: TextureUse) {
    forall t :: t in SpectrumIds(u) ==> ev.canEvaluateSpectrum(t)
  }

  /** The capability query on a declaration holds exactly when every texture
      the declaration names is evaluable by that strategy. */
  function Declares(ev: TextureEvaluator, u: TextureUse): (r: bool)
    ensures r <==> (FloatsEvaluable(ev, u) && SpectraEvaluable(ev, u))
  {
    var r := ev.CanEvaluate(u.floats, u.spectra);
    assert FloatsEvaluable(ev, u) ==> forall i :: 0 <= i < |u.floats| && u.floats[i].Some? ==> ev.canEvaluateFloat(u.floats[i].value) by {
      if FloatsEvaluable(ev, u) {
        forall i | 0 <= i < |u.floats| && u.floats[i].Some?
          ensures ev.canEvaluateFloat(u.floats[i].value)
        {
          assert u.floats[i].value in FloatIds(u);
        }
      }
    }
    assert SpectraEvaluable(ev, u) ==> forall i :: 0 <= i < |u.spectra| && u.spectra[i].Some? ==> ev.canEvaluateSpectrum(u.spectra[i].value) by {
      if SpectraEvaluable(ev, u) {
        forall i | 0 <= i < |u.spectra| && u.spectra[i].Some?
          ensures ev.canEvaluateSpectrum(u.spectra[i].value)
        {
          assert u.spectra[i].value in SpectrumIds(u);
        }
      }
    }
    r
  }

  /** Two evaluators give the same value for every declared texture at this
      context and these wavelengths. */
  predicate AgreeOn(e1: TextureEvaluator, e2: TextureEvaluator, u: TextureUse,
                    ctx: TextureEvalContext, lambda: SampledWavelengths)
  {
    && (forall t :: t in FloatIds(u) ==> e1.evalFloat(t, ctx) == e2.evalFloat(t, ctx))
    && (forall t :: t in SpectrumIds(u) ==> e1.evalSpectrum(t, ctx, lambda) == e2.evalSpectrum(t, ctx, lambda))
  }
}

=== FILE: thindielectric.dfy ===
/** The thin dielectric material: a thin sheet with an index-of-refraction
    spectrum and no roughness. */
module ThinDielectricMaterials {
  import opened Wrappers
  import opened Handles
  import opened Spectra
  import opened Textures
  import opened Scattering
  import DielectricMaterials

  datatype ThinDielectricMaterial = ThinDielectricMaterial(
    eta: Spectrum, displacement: Option<FloatTexture>, normalMap: Option<ImageHandle>)

  /** No textures are read, so every evaluation strategy can be used. */
  function TextureUses(m: ThinDielectricMaterial): (u: TextureUse) {
    NoTextures
  }

  function CanEvaluateTextures(m: ThinDielectricMaterial, ev: TextureEvaluator): (r: bool)
    ensures r
    ensures r == Declares(ev, TextureUses(m))
  {
    true
  }

  function GetBSDF(m: ThinDielectricMaterial, ev: TextureEvaluator, ctx: MaterialEvalContext,
                   lambda: SampledWavelengths): (r: Evaluated)
    ensures r.bsdf.ns == ctx.ns && r.bsdf.dpdus == ctx.dpdus
    ensures r.bsdf.bxdf.ThinDielectricBxDF?
    ensures r.bsdf.bxdf.eta != 0.0
    ensures m.eta.Sample(lambda.lambda[0]) != 0.0 ==> r.bsdf.bxdf.eta == m.eta.Sample(lambda.lambda[0])
    ensures m.eta.Sample(lambda.lambda[0]) == 0.0 ==> r.bsdf.bxdf.eta == 1.0
    ensures r.lambda.lambda == lambda.lambda
    ensures r.lambda.secondaryTerminated <==> lambda.secondaryTerminated || !m.eta.ConstantSpectrum?
  {
    var (sampledEta, lambda') := DielectricMaterials.SampleEta(m.eta, lambda);
    Evaluated(BSDF(ctx.ns, ctx.dpdus, ThinDielectricBxDF(sampledEta)), lambda')
  }

  /** A sampled index of refraction of exactly 0 is treated as 1. */
  lemma EtaZeroActsAsOne(m: ThinDielectricMaterial, zero: Spectrum, one: Spectrum,
                         ev: TextureEvaluator, ctx: MaterialEvalContext, lambda: SampledWavelengths)
    requires zero.Sample(lambda.lambda[0]) == 0.0 && one.Sample(lambda.lambda[0]) == 1.0
    requires zero.ConstantSpectrum? == one.ConstantSpectrum?
    ensures GetBSDF(m.(eta := zero), ev, ctx, lambda) == GetBSDF(m.(eta := one), ev, ctx, lambda)
  {
  }
}

=== FILE: wrappers.dfy ===
/** Failure-carrying wrappers: an optional value (a nullable handle in the
    renderer) and a result that is either a value or a configuration error. */
module Wrappers {

  /** A handle that may be absent; `None` plays the role of a null pointer. */
  datatype Option<+T> = None | Some(value: T)

  /** Either a computed value or the reason the computation is a fatal error. */
  datatype Result<+T, +E> = Success(value: T) | Failure(error: E)
}
